=== FILE: README.md ===
# ReliablyAwesomeUdp: a Dafny model of the reliable-datagram core

ReliablyAwesomeUdp layers a small NACK-based reliability protocol over UDP.
The sender cuts a message into numbered Start/Data/End frames. The receiver
places the frames that arrive into a slot list indexed by sequence number.
Once an End frame is in, the receiver reports the missing indices in a
Report frame. The sender re-sends exactly those frames, re-tagged so that
the last one is again an End frame, until a Report with an empty payload
arrives. A raw mode skips all of this and sends bare packets.

On the server side, one listening socket routes datagrams by the sender's
`host:port` to per-peer connections. A connection is created on a peer's
first datagram, and `accept` hands out the newest one. A countdown timer
thread drives the sender's resend of the last frame and the receiver's
read timeout.

The model is written as pure functions over immutable datatypes. The
files follow the structure of the program:

| file | module | models |
|---|---|---|
| types.dfy | `Types` | Java `byte`/`int`, exceptions as `Result` errors |
| text.dfy | `Text` | `Integer.toString`, `String.join`, `split(",")`, `trim`, `Integer.parseInt`, ASCII bytes |
| frames.dfy | `Frames` | `Frame.parse`, `Frame.toBytes`, the big-endian int helpers |
| chunking.dfy | `Chunking` | the frame loop of `send`, and `sendRaw` |
| reassembly.dfy | `Reassembly` | the draining, gap report and concatenation of `recv`, `fillArrayToSize`, `findNullEleIndexes` |
| repair.dfy | `Repair` | the Report lookup and repair rounds of `send` |
| connection.dfy | `Connection` | `UdpSocketServerImpl` as a connection: key, closed flag, `addData`, `recvRaw`, `send` |
| multiplexer.dfy | `Multiplexer` | the listening loop, `accept`, `close` and `isClosed` of `UdpServerSocket` |
| timer.dfy | `Timer` | `CountdownTimer` as a step relation over events |

Java exceptions become `Err` values: `IndexOutOfBounds`, `NumberFormat`,
`IllegalThreadState` and `IllegalArgument`. Blocking waits become preconditions:
- `recv` requires the last queued frame to be an End frame.
- `recvRaw` requires a queued datagram or a closed connection.
- `accept` requires a pending connection or a closed server.

Java `int` arithmetic is wrapped explicitly in three places:
- `frame.seq+1` in `recv`;
- the loop guard `totalRead + PAYLOAD_LENGTH` of `send`, which wraps on
  messages of 2147482621 bytes or more, so that `Arrays.copyOfRange` throws;
- the loop guard `totalRead + PACKET_LENGTH` of `sendRaw`, which wraps on
  messages of 2147483137 bytes or more, so that `System.arraycopy` throws
  after the earlier packets have gone out.

The other `int` sums of the core stay below `Integer.MAX_VALUE` for arrays
Java can allocate, and the model computes them without wrapping. Byte reads
are made signed explicitly (the type byte in `Frame.parse`).

## Model

| member | source | states |
|---|---|---|
| Types.Wrap32 | src/com/vincentcodes/io/UdpSocket.java:305 | Java int addition wraps: the result is congruent to the true sum modulo 2^32, and equal to it when it fits |
| Types.SignedByte | src/com/vincentcodes/io/udpframes/Frame.java:69 | a byte read as a Java byte lies in -128..127 and has the same low eight bits |
| Text.DecimalText | src/com/vincentcodes/io/UdpSocket.java:341 | `Integer.toString` of an index is a non-empty digit string without a leading zero |
| Text.DecimalTextRoundTrip | src/com/vincentcodes/io/UdpSocket.java:341 | the value of the decimal text of n is n |
| Text.ParseIntOfDecimal | src/com/vincentcodes/io/UdpSocket.java:244 | `Integer.parseInt` of the decimal text of an int-sized index returns that index |
| Text.ParseInt | src/com/vincentcodes/io/UdpSocket.java:244 | a successful parse is an optional '-' or '+' followed by digits only, and its value is the digits' value, negated after '-'; conversely every such text whose value fits an int (down to -2^31) parses to that value |
| Text.Join | src/com/vincentcodes/io/UdpSocket.java:346 | joining no pieces gives "", and joining one piece gives that piece |
| Text.JavaSplit | src/com/vincentcodes/io/UdpSocket.java:241 | text without a comma splits into itself, even when empty; otherwise the pieces are a prefix of the comma-cut pieces, every dropped piece is empty, and the last kept piece is not, so exactly the trailing empty pieces are dropped |
| Text.SplitJoin | src/com/vincentcodes/io/UdpSocket.java:241 | cutting a comma-joined list of comma-free pieces at its commas gives back the pieces |
| Text.JavaSplitJoinDecimal | src/com/vincentcodes/io/UdpSocket.java:241 | `split(",")` of the comma-joined decimal texts of a non-empty index list gives back those texts |
| Text.Trim | src/com/vincentcodes/io/UdpSocket.java:238 | the trimmed text is no longer and neither starts nor ends with a character up to U+0020 |
| Text.TrimIsStretch | src/com/vincentcodes/io/UdpSocket.java:238 | the trimmed text is the stretch of the text that follows its leading characters up to U+0020, and only such characters follow it |
| Text.TrimIdempotent | src/com/vincentcodes/io/UdpSocket.java:238 | trimming twice is trimming once |
| Text.TrimNoWhite | src/com/vincentcodes/io/UdpSocket.java:238 | a text that neither starts nor ends with a blank is unchanged by `trim` |
| Text.AsciiRoundTrip | src/com/vincentcodes/io/UdpSocket.java:316 | decoding the bytes of ASCII text gives back the text |
| Text.JoinedDecimalIsAscii | src/com/vincentcodes/io/UdpSocket.java:316 | the joined gap text is ASCII without blanks, so `getBytes` and `trim` leave it intact |
| Frames.IntToBytes | src/com/vincentcodes/io/udpframes/Frame.java:90-92 | four bytes whose big-endian value is the int's 32-bit two's-complement pattern |
| Frames.IntFromBytes | src/com/vincentcodes/io/udpframes/Frame.java:94-96 | the int read has the 32-bit pattern spelled by the four bytes from `start` |
| Frames.IntBytesRoundTrip | src/com/vincentcodes/io/udpframes/Frame.java:90-96 | `getIntFrom4Bytes(intToByteArray(v), 0) == v` for every int, negatives included |
| Frames.BytesIntRoundTrip | src/com/vincentcodes/io/udpframes/Frame.java:90-96 | `intToByteArray(getIntFrom4Bytes(b, 0)) == b` for every four bytes |
| Frames.Parse | src/com/vincentcodes/io/udpframes/Frame.java:66-73 | parse fails, with an index exception, exactly on input shorter than 5 bytes; the type is byte 0 read signed, the seq is bytes 1..4 big-endian, the payload is everything after, with nothing validated |
| Frames.ToBytes | src/com/vincentcodes/io/udpframes/Frame.java:74-88 | the encoding has length 5 + payload length; byte 0 is the low byte of the type, bytes 1..4 spell the seq big-endian, the rest is the payload |
| Frames.ParseToBytes | src/com/vincentcodes/io/udpframes/Frame.java:66-88 | decoding an encoded frame gives it back if and only if its type fits a signed byte, which covers types 0-3 |
| Frames.ToBytesParse | src/com/vincentcodes/io/udpframes/Frame.java:66-88 | re-encoding any parsed input of at least 5 bytes reproduces it byte for byte |
| Frames.ParseHighTypeIsNegative | src/com/vincentcodes/io/udpframes/Frame.java:69 | a type code of 128..255 comes back as that code minus 256 |
| Chunking.FrameCount | src/com/vincentcodes/io/UdpSocket.java:170-183 | one frame for an empty message, otherwise the number of started 1467-byte blocks |
| Chunking.Chunk | src/com/vincentcodes/io/UdpSocket.java:164-183 | the framing loop throws IllegalArgumentException exactly when its 32-bit guard overflows; otherwise the frames are consecutive slices of the message, numbered 0,1,2,..., the last tagged End, the first of several tagged Start, the rest Data |
| Chunking.ChunkingOverflowThreshold | src/com/vincentcodes/io/UdpSocket.java:170-171 | the framing loop overflows exactly on messages of 2147482621 bytes or more |
| Chunking.ChunkSizes | src/com/vincentcodes/io/UdpSocket.java:170-181 | every frame but the last carries exactly 1467 bytes; the last carries 1..1467 bytes, or none for an empty message |
| Chunking.ChunkTags | src/com/vincentcodes/io/UdpSocket.java:170-183 | exactly the last frame is End, exactly the first of several is Start, and a message of up to one block is the single frame End/0/message |
| Chunking.ChunksReassemble | src/com/vincentcodes/io/UdpSocket.java:164-183 | concatenating the frame payloads in order gives back the message |
| Chunking.RawPackets | src/com/vincentcodes/io/UdpSocket.java:106-117 | `sendRaw` as written: every packet but the last is a full 1472 bytes, every packet sent has at least 2 bytes, and a failure is an index exception |
| Chunking.RawFailsIffOverflow | src/com/vincentcodes/io/UdpSocket.java:109-110 | `sendRaw` throws exactly when the block end its 32-bit loop guard computes passes `Integer.MAX_VALUE` before the loop would stop |
| Chunking.RawOverflowThreshold | src/com/vincentcodes/io/UdpSocket.java:109-110 | from offset 0 that happens exactly on messages of 2147483137 bytes or more |
| Chunking.RawPacketsContent | src/com/vincentcodes/io/UdpSocket.java:106-117 | when it does not throw, `sendRaw` as written sends all remaining bytes in order, except the last one when the final remainder is exactly one byte |
| Chunking.OneByteRawMessageIsLost | src/com/vincentcodes/io/UdpSocket.java:114 | a one-byte raw message sends nothing, so the byte never reaches the peer |
| Chunking.LastByteLost | src/com/vincentcodes/io/UdpSocket.java:114 | every message shorter than the overflow bound whose length is 1 modulo 1472 loses its last byte in raw mode |
| Chunking.RawPacketsFixed | src/com/vincentcodes/io/UdpSocket.java:106-117 | the corrected `sendRaw`: full packets then a non-empty remainder, concatenating to exactly the message |
| Chunking.RawFixedAgrees | src/com/vincentcodes/io/UdpSocket.java:106-117 | the correction changes only the lost byte: without a one-byte remainder or an overflow, `sendRaw` as written sends exactly the corrected packets |
| Reassembly.Fill | src/com/vincentcodes/io/UdpSocket.java:327-331 | the list grows to `size` (never shrinks), keeps its entries, and the new slots are empty |
| Reassembly.Place | src/com/vincentcodes/io/UdpSocket.java:304-306 | placing succeeds if and only if 0 <= seq < Integer.MAX_VALUE; the list grows to at least seq+1, the frame lands at seq (last write wins), and every other slot is as before or newly empty |
| Reassembly.FirstEnd | src/com/vincentcodes/io/UdpSocket.java:308 | the position of the first End frame in the queue: an End frame with none before it |
| Reassembly.Drain | src/com/vincentcodes/io/UdpSocket.java:303-309 | draining places exactly the frames up to and including the first End frame, and leaves the rest of the queue |
| Reassembly.NullIndexesBelow | src/com/vincentcodes/io/UdpSocket.java:336-344 | reference definition: every index below n of an empty slot, each pointing at an empty slot, strictly ascending |
| Reassembly.ReportedGaps | src/com/vincentcodes/io/UdpSocket.java:336-344 | the reported gaps are a prefix of all empty-slot indices, of length min(limit, number of empty slots) |
| Reassembly.NoGapsIffFull | src/com/vincentcodes/io/UdpSocket.java:345 | no empty-slot index exists if and only if every slot is filled |
| Reassembly.GapTextEmptyIff | src/com/vincentcodes/io/UdpSocket.java:310-311 | with a positive limit, the gap text is empty if and only if no slot is empty |
| Reassembly.FindNullIndexes | src/com/vincentcodes/io/UdpSocket.java:336-347 | the scan collects the first min(limit, #empty) empty-slot indices, ascending and in range, and returns them comma-joined; the text is "" exactly when no slot is empty |
| Reassembly.ReportFrame | src/com/vincentcodes/io/UdpSocket.java:310-316 | the Report frame has type 3, seq = slot count, and a payload that decodes to the gap text |
| Reassembly.ReceivePass | src/com/vincentcodes/io/UdpSocket.java:298-325 | one round of `recv`: it drains, sends the Report, and delivers the concatenated slots exactly when no slot is empty, else keeps the slots |
| Reassembly.PlaceAllAgrees | src/com/vincentcodes/io/UdpSocket.java:303-309 | placing frames of one message in any order and with repeats never fails, keeps every slot consistent with the message, and fills each placed frame's slot |
| Reassembly.AssembleAgrees | src/com/vincentcodes/io/UdpSocket.java:320-325 | the concatenation of complete slots that agree with the frames equals the frames' payload concatenation |
| Reassembly.FullSlotsDeliverMessage | src/com/vincentcodes/io/UdpSocket.java:310-325 | complete slots agreeing with a message's framing report no gap and concatenate to the message |
| Reassembly.DeliveryReproducesMessage | src/com/vincentcodes/io/UdpSocket.java:303-325 | end to end: if every frame arrives at least once, in any order, with repeats and re-tags, no gap is reported and the message is reproduced |
| Repair.TakeReport | src/com/vincentcodes/io/UdpSocket.java:217-231 | a Report is found exactly when it is at the back or the front; the back is preferred; it is removed from the end it was found at, and the rest keeps its order |
| Repair.ParseAll | src/com/vincentcodes/io/UdpSocket.java:250-260 | succeeds if and only if every piece parses, giving each piece's value in order |
| Repair.ParseReport | src/com/vincentcodes/io/UdpSocket.java:241-260 | the index list has one entry per split piece, each the piece's value; a single piece is parsed as the whole text (so "5," fails). It succeeds exactly when that text, or every piece, parses; otherwise the error is a number-format error, and no piece means an index exception |
| Repair.InRangeOnly | src/com/vincentcodes/io/UdpSocket.java:254-259 | the in-range indices of a list, each as often as it was listed and nothing else; the whole list when every index is in range |
| Repair.InRangeOnlyAppend | src/com/vincentcodes/io/UdpSocket.java:254-259 | keeping the in-range indices preserves list order: it distributes over concatenation |
| Repair.Pick | src/com/vincentcodes/io/UdpSocket.java:254-259 | the interior resend is the retained frames at the in-range listed indices, in list order, the out-of-range ones skipped |
| Repair.PickInRange | src/com/vincentcodes/io/UdpSocket.java:254-259 | with all indices in range, the interior resend is exactly the listed frames in list order |
| Repair.ApplyRepair | src/com/vincentcodes/io/UdpSocket.java:243-265 | the round succeeds if and only if the first and last indices are in range. On success the last listed frame is re-tagged End and becomes `lastFrame`, the first of several is re-tagged Start, the frames are sent in list order, and no other retained frame changes |
| Repair.RunRepair | src/com/vincentcodes/io/UdpSocket.java:241-265 | exceptions in source order: an index exception for no piece, a number-format error when the first piece does not parse, and an index exception for a first index out of range |
| Repair.RunRepairAgrees | src/com/vincentcodes/io/UdpSocket.java:241-265 | the source-order round succeeds exactly when parsing the whole list and repairing does, with the same result; once the text parses, the only failure is an index exception |
| Repair.HandleReport | src/com/vincentcodes/io/UdpSocket.java:236-265 | an empty Report payload ends the transfer; otherwise the trimmed text is parsed and the repair round is run on exactly that index list |
| Repair.DecimalPiecesParse | src/com/vincentcodes/io/UdpSocket.java:250-260 | parsing the decimal texts of int-sized indices gives back the indices |
| Repair.TrimJoinedGaps | src/com/vincentcodes/io/UdpSocket.java:238 | trimming leaves a non-empty joined gap text unchanged |
| Repair.GapTextRoundTrip | src/com/vincentcodes/io/UdpSocket.java:238-260 | the sender's trim, split and parse of the receiver's joined gap text recovers exactly the gap list |
| Repair.ReportTextDrivesRepair | src/com/vincentcodes/io/UdpSocket.java:236-265 | a Report carrying a joined index list acknowledges when the list is empty, and otherwise repairs exactly that list |
| Repair.ReportDrivesRepair | src/com/vincentcodes/io/UdpSocket.java:310-316 | what the receiver reports is what the sender repairs: no gap acknowledges, otherwise the round runs on exactly the reported gaps |
| Repair.RepairResendsListed | src/com/vincentcodes/io/UdpSocket.java:243-265 | with every index in range, one frame is sent per listed index, in order, with that frame's seq and payload; the last is End, the first of several is Start, and retained frames keep their contents |
| Repair.ResentCover | src/com/vincentcodes/io/UdpSocket.java:243-265 | a round over in-range indices sends only frames of the original framing, and covers every listed index |
| Repair.RepairFillsGaps | src/com/vincentcodes/io/UdpSocket.java:303-316 | repair converges: if all gaps fit in one Report, placing one round's frames completes the slots and they reassemble to the message |
| Connection.AddressKeySplits | src/com/vincentcodes/io/UdpSocketServerImpl.java:69-72 | the last colon of a key splits it into the host address and the port text, and `Integer.parseInt` of the port text gives the port |
| Connection.KeyInjective | src/com/vincentcodes/io/UdpServerSocket.java:62-63 | distinct peers have distinct keys, even IPv6 hosts containing colons, because the port text has no colon |
| Connection.Open | src/com/vincentcodes/io/UdpSocketServerImpl.java:19-33 | a new connection is open, has the mode given by the constructor, has empty queues, and its full address is the host, a colon, and a text that `Integer.parseInt` reads back as the port |
| Connection.Close | src/com/vincentcodes/io/UdpSocketServerImpl.java:79-82 | `close` sets the closed flag and changes nothing else |
| Connection.CloseIdempotent | src/com/vincentcodes/io/UdpSocketServerImpl.java:79-82 | closing twice is closing once |
| Connection.AddData | src/com/vincentcodes/io/UdpSocket.java:72-89 | a closed connection refuses; raw mode queues the datagram as is; reliable mode queues its parsed frame, which re-encodes to the datagram, and throws on datagrams shorter than 5 bytes |
| Connection.ClosedRefuses | src/com/vincentcodes/io/UdpSocket.java:73 | after `close`, every datagram is refused |
| Connection.RecvRaw | src/com/vincentcodes/io/UdpSocket.java:124-133 | the result is null exactly when nothing is queued (closed), and then nothing changes; otherwise the queue before equals the returned datagram followed by the queue after, and no other field changes |
| Connection.RecvRawMode | src/com/vincentcodes/io/UdpSocket.java:275-280 | `recv` in raw mode returns null on a closed connection, and otherwise the oldest datagram |
| Connection.RecvMany | src/com/vincentcodes/io/UdpSocket.java:124-133 | n raw receives return n datagrams |
| Connection.AddAllQueues | src/com/vincentcodes/io/UdpSocket.java:72-79 | an open raw connection queues every datagram, in arrival order |
| Connection.RecvManyTakesPrefix | src/com/vincentcodes/io/UdpSocket.java:124-133 | n raw receives return the n oldest datagrams and leave the rest queued |
| Connection.RawFifo | src/com/vincentcodes/io/UdpSocket.java:72-133 | raw mode is first-in first-out: every delivered datagram comes back, in delivery order |
| Connection.Send | src/com/vincentcodes/io/UdpSocket.java:156-200 | `send` transmits nothing when closed. In raw mode it sends packets of 2..1472 bytes that concatenate to the message, less its last byte when the length is 1 modulo 1472, and it throws from 2147483137 bytes on. In reliable mode it sends the framing of the message, and throws IllegalArgumentException from 2147482621 bytes on |
| Connection.FramesSurviveTheWire | src/com/vincentcodes/io/UdpSocket.java:199-200 | every frame `send` transmits decodes back to itself at the receiver |
| Multiplexer.NewServer | src/com/vincentcodes/io/UdpServerSocket.java:34-42 | a new server is open, valid, and has the given mode, an empty registry and no pending connections |
| Multiplexer.DefaultServer | src/com/vincentcodes/io/UdpServerSocket.java:46-48 | the one-argument constructor gives an open, valid server in reliable mode, with no connections |
| Multiplexer.Truncate | src/com/vincentcodes/io/UdpServerSocket.java:36-59 | a received payload is a prefix of the datagram of at most 65507 bytes, and is the whole datagram when it fits |
| Multiplexer.Admit | src/com/vincentcodes/io/UdpServerSocket.java:62-76 | a known key yields its connection and changes nothing; an unknown key creates one open connection in the server's mode, registers it under the key and appends it to the pending list |
| Multiplexer.Receive | src/com/vincentcodes/io/UdpServerSocket.java:54-85 | one loop iteration keeps the registry-to-peer invariant and the mode; a closed server ignores datagrams |
| Multiplexer.ReceiveKeepsConnections | src/com/vincentcodes/io/UdpServerSocket.java:65-80 | one datagram never removes a connection or changes its peer |
| Multiplexer.ReceiveRoutesByAddress | src/com/vincentcodes/io/UdpServerSocket.java:75-79 | a datagram from a known open peer is queued on that peer's connection only; the registry and pending list are unchanged |
| Multiplexer.NewPeerGetsConnection | src/com/vincentcodes/io/UdpServerSocket.java:65-74 | a new peer's first datagram creates exactly one connection for that peer, appended to the back of the pending list |
| Multiplexer.ShortFrameClosesServer | src/com/vincentcodes/io/UdpServerSocket.java:79-85 | in reliable mode, a datagram too short for a frame header closes the whole server |
| Multiplexer.EvictThenRecreate | src/com/vincentcodes/io/UdpServerSocket.java:65-80 | a closed connection's key alone is dropped from the registry; the peer's next datagram creates a fresh open connection |
| Multiplexer.DistinctPeersDistinctConnections | src/com/vincentcodes/io/UdpServerSocket.java:62-63 | distinct peers are routed to distinct connections |
| Multiplexer.ReceiveAll | src/com/vincentcodes/io/UdpServerSocket.java:54-81 | the listening loop keeps the server invariant and its mode |
| Multiplexer.ClosedStaysClosed | src/com/vincentcodes/io/UdpServerSocket.java:54 | once closed, the server stays closed and ignores everything that arrives |
| Multiplexer.ConnectionsOnlyGrow | src/com/vincentcodes/io/UdpServerSocket.java:65-80 | connections are never removed or re-addressed, so an accepted handle stays valid |
| Multiplexer.ReceiveAfterAdmit | src/com/vincentcodes/io/UdpServerSocket.java:78-80 | delivering the data leaves the pending list and the connection count as finding or creating the connection left them |
| Multiplexer.ReceiveQueuesCreated | src/com/vincentcodes/io/UdpServerSocket.java:65-74 | one datagram creates at most one connection, and exactly the created one is appended to the pending list |
| Multiplexer.CreatedArePending | src/com/vincentcodes/io/UdpServerSocket.java:65-74 | over any datagram sequence, the pending list grows by exactly the created connections, in creation order, each once |
| Multiplexer.Serve | src/com/vincentcodes/io/UdpServerSocket.java:54-106 | any interleaving of datagrams, `accept` calls and `close` keeps the server's invariant, never removes a connection, and hands out only existing connections (an `accept` that would wait is skipped until it can return) |
| Multiplexer.AcceptedPlusPendingIsCreated | src/com/vincentcodes/io/UdpServerSocket.java:65-106 | over any interleaving of datagrams, `accept` calls and `close`, the connections handed out by `accept` plus those still pending are, as a multiset, exactly those pending at the start plus those created; so their count grows by the number created |
| Multiplexer.PendingAccounting | src/com/vincentcodes/io/UdpServerSocket.java:65-106 | the multiset accounting above, step by step: a datagram adds its new connection to the pending list, and a returning `accept` moves the back of that list to the handed-out list |
| Multiplexer.NoConnectionLostOrDuplicated | src/com/vincentcodes/io/UdpServerSocket.java:65-106 | every connection created while serving is handed out by `accept` or still pending; none is handed out twice; none handed out is still pending |
| Multiplexer.Accept | src/com/vincentcodes/io/UdpServerSocket.java:96-106 | a closed server returns null; otherwise the most recently queued pending connection is removed and returned, and the list shrinks by one |
| Multiplexer.AcceptReturnsNewestPeer | src/com/vincentcodes/io/UdpServerSocket.java:65-105 | `accept` right after a new peer's first datagram returns that peer's connection, ahead of older pending ones |
| Multiplexer.Close | src/com/vincentcodes/io/UdpServerSocket.java:123-149 | `close` sets the closed flag, so `isClosed` (modelled by `Multiplexer.IsClosed`) holds, changes nothing else, and keeps the server invariant |
| Multiplexer.CloseStopsServer | src/com/vincentcodes/io/UdpServerSocket.java:97-147 | after `close`, `isClosed` is true, datagrams are ignored and `accept` returns null |
| Multiplexer.CloseConnection | src/com/vincentcodes/io/UdpSocketServerImpl.java:79-82 | closing an accepted connection sets its flag only, keeping its peer, mode and both queues, and touches no other connection or server field |
| Timer.NewTimer | src/com/vincentcodes/io/CountdownTimer.java:7-17 | a new timer has nothing elapsed, is not stopped, has a count queued and no handler |
| Timer.Start | src/com/vincentcodes/io/CountdownTimer.java:6 | starting succeeds only on an unstarted thread; a second start throws IllegalThreadStateException |
| Timer.Step | src/com/vincentcodes/io/CountdownTimer.java:27-68 | the handler fires if and only if a counting thread steps with the time up, not stopped, and a handler set, and it leaves the thread waiting or ended. A tick adds at most one to the count, and only while counting; a tick on a waiting, ended or unstarted thread changes nothing. `reset` clears the count and the stop flag, queues a count and wakes a waiting thread; `resetTimeLapsed` clears the count only; `stopTimer` sets the stop flag only; `setExitHandler` sets the handler only; `killTimer` stops and interrupts, ending a sleeping or waiting thread; a finished thread stays finished. A handler that throws ends the thread |
| Timer.ThrowingHandlerEndsTimer | src/com/vincentcodes/io/CountdownTimer.java:35-45 | once a handler that throws has run, the thread has ended and the handler never runs again, even after a `reset` |
| Timer.StepKeepsBounded | src/com/vincentcodes/io/CountdownTimer.java:31-34 | the elapsed count never exceeds the duration |
| Timer.RunKeepsBounded | src/com/vincentcodes/io/CountdownTimer.java:31-34 | over any event sequence, the elapsed count never exceeds the duration |
| Timer.FinishedIsFinal | src/com/vincentcodes/io/CountdownTimer.java:45 | a thread that returned from `run` never fires again |
| Timer.WaitingNeedsReset | src/com/vincentcodes/io/CountdownTimer.java:35-39 | after a cycle ends, the handler does not fire again until a `reset`: at most once per cycle |
| Timer.AtMostOncePerCycle | src/com/vincentcodes/io/CountdownTimer.java:28-46 | between two `reset` calls the handler runs at most once, whatever else happens |
| Timer.NoCountWithoutReset | src/com/vincentcodes/io/CountdownTimer.java:35-39 | once a cycle has ended, the thread stays waiting (or ends) and counts nothing until a `reset` |
| Timer.StoppedStaysSilent | src/com/vincentcodes/io/CountdownTimer.java:31-63 | a stopped timer never fires until a `reset` |
| Timer.DoomedStep | src/com/vincentcodes/io/CountdownTimer.java:28-68 | an interrupted thread that has not fired stays doomed and does not fire |
| Timer.DoomedRun | src/com/vincentcodes/io/CountdownTimer.java:28-68 | a doomed thread never fires, whatever follows |
| Timer.KillSilences | src/com/vincentcodes/io/CountdownTimer.java:65-68 | after `killTimer` on a started timer, the handler never fires again, even after a `reset` |
| Timer.CountingTicks | src/com/vincentcodes/io/CountdownTimer.java:31-34 | uninterrupted counting adds exactly one per tick and never fires |
| Timer.RunAppend | src/com/vincentcodes/io/CountdownTimer.java:27-46 | running two event lists in turn is running their concatenation; the firings add up |
| Timer.OneCountFiresOnce | src/com/vincentcodes/io/CountdownTimer.java:10-39 | a started timer with a handler fires exactly once after the duration plus two steps, needing no `reset` for its first cycle, and then waits with the full duration elapsed |
| Timer.ResetWhileCountingRestartsCount | src/com/vincentcodes/io/CountdownTimer.java:48-59 | a `reset` during counting restarts the count from zero, with a further count queued |

## Left out

- UdpSocketImpl.java is not part of this model: it is a DatagramSocket wrapper with a receive thread, pure I/O.
- Client.java and Server.java are not part of this model: they are demo programs with file, TCP and console I/O.
- Socket I/O and options (`sendUnsafe`, `setSoTimeout`, `setBroadcast`, `getLocal*`, `getRemoteAddress`) are left out as pass-throughs to java.net. The peer address is a parameter.
- Threads, `wait`/`notify`, and the `Thread.sleep(1)` polling in `recv` are left out. Waits are preconditions on queue state, and interleavings are not modelled, so spurious wakeups and the unsynchronised `timelapsed` and `isStopped` fields are not modelled either.
- Real time: timer durations are tick counts. The send timer's resend of `lastFrame` and the receive timer's read timeout are not connected to `Send`/`ReceivePass`; the timer is modelled on its own.
- `InterruptedException` leading to `close` in `send`/`recv` and `accept`'s ignored interrupt are left out, with the threads.
- Repair.ApplyRepair: the frames already transmitted before a first or last index turns out out of range are not reported on the error path. The source has sent them when it throws.
- Repair.ApplyRepair: `lastFrame` aliases a retained frame object, so a later round that re-tags that frame also changes what the timer re-sends. The model returns the frame's value for the current round only.
- The shared static `ByteArrayOutputStream` in `Frame.toBytes` is a thread-safety hazard; `ToBytes` is a pure function.
- `Math.ceil` in the `ArrayList` capacity hint of `send` is floating point and only a capacity hint, so it is left out.
- Text.ParseInt accepts ASCII digits only. `Integer.parseInt` also accepts other Unicode decimal digits, which the receiver never produces.
- Text.BytesText maps each byte to one character. `new String(bytes)` decodes with the platform's default charset; the model assumes an ASCII-compatible one, which agrees on ASCII, the only text a Report frame carries.
- Timer.Step: `killTimer` on a thread not yet started only sets the stop flag; an interrupt before `start` is not kept pending for the thread.
- Connection.RecvRaw: a connection closed while datagrams are still queued hands them out, as `pollFirst` does; `recv` itself returns null first because it checks `isClosed`.
- The default constructor of `UdpServerSocket` is documented as enabling raw sockets, but it passes `true` (reliable). The model follows the code (`DefaultServer`).
- Chunking.RawPacketsFixed: its offsets are unbounded integers, so the corrected definition leaves out the 32-bit overflow that the as-written `RawPackets` models for messages of 2147483137 bytes or more.
- Connection.Send: in reliable mode it stops after the framing; the Report wait and the repair rounds that follow are modelled by the `Repair` module, not inside `Send`.
- Running out of memory when a huge sequence number makes `fillArrayToSize` grow the list is not modelled; the list size is bounded by `Integer.MAX_VALUE`.

## Findings

| source | as written | input that shows it | evidently intended | confidence | as-written member | corrected member |
|---|---|---|---|---|---|---|
| src/com/vincentcodes/io/UdpSocket.java:114 | `if(totalRead + 1 >= bytes.length) return;` skips a final remainder of exactly one byte | a one-byte message `[b]` in raw mode: no datagram is sent; likewise any message of length 1472k + 1 loses its last byte | `if(totalRead >= bytes.length) return;`, sending every non-empty remainder | not executed | Chunking.RawPackets, Chunking.OneByteRawMessageIsLost, Chunking.LastByteLost | Chunking.RawPacketsFixed |

=== FILE: chunking.dfy ===
/** How `UdpSocket.send` cuts a message into datagrams: Start/Data/End
    frames in reliable mode, bare packets in raw mode. */
module Chunking {
  import opened Types
  import opened Frames

  /** Payload bytes per frame: a 1472-byte datagram less the 5-byte header. */
  const PayloadLength: nat := 1472 - 5
  /** Bytes per raw-mode datagram. */
  const PacketLength: nat := 5 + PayloadLength
  /** The largest datagram the transport delivers. */
  const MaxUdpPacketSize: nat := 65507

  /** Number of frames for an n-byte message: one per started block of
      `PayloadLength` bytes, and one frame for the empty message. */
  function FrameCount(n: nat): (k: nat)
    ensures k >= 1
    ensures n == 0 ==> k == 1
    ensures n > 0 ==> (k - 1) * PayloadLength < n <= k * PayloadLength
  {
    if n == 0 then 1 else (n + PayloadLength - 1) / PayloadLength
  }

  /** The type of frame i of k: the last is End, else the first is Start,
      else Data. A single frame is End only. */
  function Tag(i: nat, k: nat): i32 {
    if i + 1 == k then End else if i == 0 then Start else Data
  }

  function ChunkStart(i: nat): nat {
    i * PayloadLength
  }

  function ChunkEnd(n: nat, i: nat, k: nat): nat {
    if i + 1 == k then n else (i + 1) * PayloadLength
  }

  /** `frames` is the framing of `msg`: consecutive slices of it, numbered
      0, 1, 2, ... and tagged by `Tag`. */
  ghost predicate IsChunking(msg: seq<byte>, frames: seq<Frame>) {
    && |frames| == FrameCount(|msg|)
    && forall i | 0 <= i < |frames| ::
         && frames[i].seqNum == i
         && frames[i].ftype == Tag(i, |frames|)
         && ChunkStart(i) <= ChunkEnd(|msg|, i, |frames|) <= |msg|
         && frames[i].payload == msg[ChunkStart(i)..ChunkEnd(|msg|, i, |frames|)]
  }

  /** Whether the frame-building loop of `send` overflows on an n-byte
      message: the guard `totalRead + PAYLOAD_LENGTH` is a Java int, and
      once the end of the last block passes `Integer.MAX_VALUE` it wraps to
      a negative number, the guard holds once more and `Arrays.copyOfRange`
      is asked for a range that ends before it starts. */
  predicate ChunkingOverflows(n: nat) {
    n > 0 && FrameCount(n) * PayloadLength > MaxInt32
  }

  /** The frame count is pinned down by which block the last byte falls in. */
  lemma FrameCountAt(n: nat, j: nat)
    requires j * PayloadLength < n <= (j + 1) * PayloadLength
    ensures FrameCount(n) == j + 1
  {
  }

  /** The frames built so far are the first full blocks of `msg`, the
      first tagged Start and the rest Data. */
  ghost predicate FullBlocks(msg: seq<byte>, frames: seq<Frame>) {
    forall i | 0 <= i < |frames| ::
      && frames[i].seqNum == i
      && frames[i].ftype == (if i == 0 then Start else Data)
      && (i + 1) * PayloadLength <= |msg|
      && frames[i].payload == msg[ChunkStart(i)..(i + 1) * PayloadLength]
  }

  lemma FullBlocksExtend(msg: seq<byte>, frames: seq<Frame>, f: Frame)
    requires FullBlocks(msg, frames) && |msg| <= MaxArrayLength
    requires (|frames| + 1) * PayloadLength <= |msg|
    requires f == Frame(if |frames| == 0 then Start else Data, |frames|,
                        msg[|frames| * PayloadLength..(|frames| + 1) * PayloadLength])
    ensures FullBlocks(msg, frames + [f])
  {
  }

  /** The full blocks followed by the remainder as an End frame are the
      framing of `msg`. */
  lemma FullBlocksFinish(msg: seq<byte>, frames: seq<Frame>)
    requires FullBlocks(msg, frames) && |msg| <= MaxArrayLength
    requires |frames| * PayloadLength <= |msg|
    requires |frames| + 1 == FrameCount(|msg|)
    ensures IsChunking(msg, frames + [Frame(End, |frames|, msg[|frames| * PayloadLength..])])
  {
  }

  /** A block end past `Integer.MAX_VALUE` before the message ends means
      the framing overflows. */
  lemma OverflowBeforeLastBlock(n: nat, j: nat)
    requires j * PayloadLength < n
    requires (j + 1) * PayloadLength > MaxInt32
    ensures ChunkingOverflows(n)
  {
    FrameCountAt(n, FrameCount(n) - 1);
  }

  /** The loop leaves at the block that holds the last byte, and if that
      block's end fits in an int, the framing does not overflow. */
  lemma StopAtLastBlock(n: nat, j: nat)
    requires j == 0 || j * PayloadLength < n
    requires n <= (j + 1) * PayloadLength <= MaxInt32
    ensures j + 1 == FrameCount(n)
    ensures !ChunkingOverflows(n)
  {
    if n > 0 {
      FrameCountAt(n, j);
    }
  }

  /** The overflow happens exactly from 2147482621 bytes on: 1463860 blocks
      of 1467 bytes end at 2147482620, the next one past `Integer.MAX_VALUE`. */
  lemma ChunkingOverflowThreshold(n: nat)
    ensures ChunkingOverflows(n) <==> n >= 2147482621
  {
    if n > 0 {
      var k := FrameCount(n);
      assert k * PayloadLength > MaxInt32 <==> k >= 1463861;
    }
  }

  /** The frame-building loop of `send`: full blocks while more than one
      block remains, the first tagged Start and the rest Data, then the
      remainder (possibly empty) as the End frame. The loop guard is
      evaluated in 32-bit arithmetic, and its overflow ends the loop with
      the exception `Arrays.copyOfRange` throws. */
  method Chunk(msg: seq<byte>) returns (r: Result<seq<Frame>>)
    requires |msg| <= MaxArrayLength
    ensures r.Err? <==> ChunkingOverflows(|msg|)
    ensures r.Err? ==> r.error == IllegalArgument
    ensures r.Ok? ==> IsChunking(msg, r.value)
  {
    var frames: seq<Frame> := [];
    var totalRead: nat := 0;
    var seqNum: nat := 0;
    var firstPacket := true;
    while Wrap32(totalRead + PayloadLength) < |msg|
      invariant totalRead == seqNum * PayloadLength <= |msg|
      invariant seqNum > 0 ==> totalRead < |msg|
      invariant |frames| == seqNum
      invariant firstPacket <==> seqNum == 0
      invariant FullBlocks(msg, frames)
      decreases |msg| - totalRead
    {
      WrapOfSum(totalRead + PayloadLength);
      if totalRead + PayloadLength > MaxInt32 {
        OverflowBeforeLastBlock(|msg|, seqNum);
        return Err(IllegalArgument);
      }
      var payload := msg[totalRead..totalRead + PayloadLength];
      var frame: Frame;
      if firstPacket {
        frame := Frame(Start, seqNum, payload);
        firstPacket := false;
      } else {
        frame := Frame(Data, seqNum, payload);
      }
      FullBlocksExtend(msg, frames, frame);
      frames := frames + [frame];
      seqNum := seqNum + 1;
      totalRead := totalRead + PayloadLength;
    }
    WrapOfSum(totalRead + PayloadLength);
    StopAtLastBlock(|msg|, seqNum);
    FullBlocksFinish(msg, frames);
    r := Ok(frames + [Frame(End, seqNum, msg[totalRead..])]);
  }

  /** Every frame but the last carries a full block; the last carries 1 to
      `PayloadLength` bytes, or none for the empty message. */
  lemma ChunkSizes(msg: seq<byte>, frames: seq<Frame>)
    requires IsChunking(msg, frames)
    ensures forall i | 0 <= i < |frames| - 1 :: |frames[i].payload| == PayloadLength
    ensures |msg| == 0 ==> |frames[|frames| - 1].payload| == 0
    ensures |msg| > 0 ==> 1 <= |frames[|frames| - 1].payload| <= PayloadLength
  {
  }

  /** Exactly one Start (when there are several frames) and exactly one End. */
  lemma ChunkTags(msg: seq<byte>, frames: seq<Frame>)
    requires IsChunking(msg, frames)
    ensures |frames| == 1 <==> |msg| <= PayloadLength
    ensures |frames| == 1 ==> frames == [Frame(End, 0, msg)]
    ensures forall i | 0 <= i < |frames| :: frames[i].ftype == End <==> i == |frames| - 1
    ensures forall i | 0 <= i < |frames| :: frames[i].ftype == Start <==> i == 0 && |frames| > 1
  {
    if |frames| == 1 {
      assert frames[0].payload == msg;
    }
  }

  /** The payloads of a frame list, concatenated in list order. */
  function ConcatPayloads(fs: seq<Frame>): seq<byte> {
    if |fs| == 0 then [] else ConcatPayloads(fs[..|fs| - 1]) + fs[|fs| - 1].payload
  }

  lemma {:induction false} ChunkPrefix(msg: seq<byte>, frames: seq<Frame>, j: nat)
    requires IsChunking(msg, frames)
    requires j < |frames|
    ensures j * PayloadLength <= |msg|
    ensures ConcatPayloads(frames[..j]) == msg[..j * PayloadLength]
  {
    if j > 0 {
      ChunkPrefix(msg, frames, j - 1);
      assert frames[..j][..j - 1] == frames[..j - 1];
      assert msg[..j * PayloadLength] == msg[..(j - 1) * PayloadLength] + msg[(j - 1) * PayloadLength..j * PayloadLength];
    }
  }

  /** Concatenating the chunk payloads gives back the message. */
  lemma ChunksReassemble(msg: seq<byte>, frames: seq<Frame>)
    requires IsChunking(msg, frames)
    ensures ConcatPayloads(frames) == msg
  {
    var k := |frames|;
    ChunkPrefix(msg, frames, k - 1);
    assert frames[..k] == frames;
    assert frames[..k][..k - 1] == frames[..k - 1];
    assert msg == msg[..(k - 1) * PayloadLength] + msg[(k - 1) * PayloadLength..];
  }

  /** The packets of a byte list, concatenated in order. */
  function Flatten(packets: seq<seq<byte>>): seq<byte> {
    if |packets| == 0 then [] else packets[0] + Flatten(packets[1..])
  }

  /** What a raw send hands to the transport: the datagrams sent, in
      order, and the exception that ended the send early, if any. */
  datatype Sent = Sent(packets: seq<seq<byte>>, failure: Option<Exception>)

  /** `sendRaw` as written, from offset `totalRead`: full packets while more
      than one packet remains; then the rest, but only if
      `totalRead + 1 < length`, so a final remainder of exactly one byte is
      never sent. The loop guard is a Java int: once `totalRead +
      PACKET_LENGTH` wraps negative the guard holds and `System.arraycopy`
      throws, after the packets before it were sent. The offsets the loop
      reaches are 0 or inside the message, so `totalRead + 1` never wraps. */
  function RawPackets(bytes: seq<byte>, totalRead: nat): (s: Sent)
    requires totalRead <= |bytes| <= MaxArrayLength
    requires totalRead == 0 || totalRead < |bytes|
    ensures forall k | 0 <= k < |s.packets| - 1 :: |s.packets[k]| == PacketLength
    ensures forall k | 0 <= k < |s.packets| :: 2 <= |s.packets[k]| <= PacketLength
    ensures s.failure.Some? ==> s.failure.value == IndexOutOfBounds
    decreases |bytes| - totalRead
  {
    if Wrap32(totalRead + PacketLength) < |bytes| then
      if totalRead + PacketLength > MaxInt32 then Sent([], Some(IndexOutOfBounds))
      else
        var rest := RawPackets(bytes, totalRead + PacketLength);
        Sent([bytes[totalRead..totalRead + PacketLength]] + rest.packets, rest.failure)
    else if totalRead + 1 >= |bytes| then Sent([], None)
    else Sent([bytes[totalRead..]], None)
  }

  /** Whether the raw loop overflows from offset t on an n-byte message:
      the loop stops at the first block end at or past n, and overflows
      when that block end is past `Integer.MAX_VALUE`. */
  predicate RawOverflowsFrom(n: nat, t: nat) {
    n > t && t + ((n - t - 1) / PacketLength + 1) * PacketLength > MaxInt32
  }

  lemma RawOverflowStep(n: nat, t: nat)
    requires t + PacketLength < n
    ensures RawOverflowsFrom(n, t) <==> RawOverflowsFrom(n, t + PacketLength)
  {
    var x := n - (t + PacketLength) - 1;
    assert (x + PacketLength) / PacketLength == x / PacketLength + 1;
  }

  /** `sendRaw` fails exactly when its loop guard overflows. */
  lemma {:induction false} RawFailsIffOverflow(bytes: seq<byte>, totalRead: nat)
    requires totalRead <= |bytes| <= MaxArrayLength
    requires totalRead == 0 || totalRead < |bytes|
    ensures RawPackets(bytes, totalRead).failure.Some? <==> RawOverflowsFrom(|bytes|, totalRead)
    decreases |bytes| - totalRead
  {
    var n := |bytes|;
    WrapOfSum(totalRead + PacketLength);
    if Wrap32(totalRead + PacketLength) < n {
      if totalRead + PacketLength <= MaxInt32 {
        RawFailsIffOverflow(bytes, totalRead + PacketLength);
        RawOverflowStep(n, totalRead);
      }
    } else if n > totalRead {
      assert (n - totalRead - 1) / PacketLength == 0;
    }
  }

  /** From offset 0 the overflow happens exactly from 2147483137 bytes on:
      1458888 packets of 1472 bytes end at 2147483136, the next one past
      `Integer.MAX_VALUE`. */
  lemma RawOverflowThreshold(n: nat)
    ensures RawOverflowsFrom(n, 0) <==> n >= 2147483137
  {
    if n > 0 {
      var k := (n - 1) / PacketLength + 1;
      assert k * PacketLength > MaxInt32 <==> k >= 1458889;
      assert k >= 1458889 <==> n - 1 >= 1458888 * PacketLength;
    }
  }

  /** One step of `sendRaw` without the overflow: a full packet in front
      of the rest, else the final remainder if it is longer than a byte. */
  lemma RawPacketsUnfold(bytes: seq<byte>, totalRead: nat)
    requires totalRead <= |bytes| <= MaxArrayLength
    requires totalRead == 0 || totalRead < |bytes|
    requires RawPackets(bytes, totalRead).failure.None?
    ensures totalRead + PacketLength < |bytes| ==>
              var rest := RawPackets(bytes, totalRead + PacketLength);
              && rest.failure.None?
              && RawPackets(bytes, totalRead).packets == [bytes[totalRead..totalRead + PacketLength]] + rest.packets
    ensures totalRead + PacketLength >= |bytes| && totalRead + 1 >= |bytes| ==> RawPackets(bytes, totalRead).packets == []
    ensures totalRead + PacketLength >= |bytes| && totalRead + 1 < |bytes| ==> RawPackets(bytes, totalRead).packets == [bytes[totalRead..]]
  {
    WrapOfSum(totalRead + PacketLength);
  }

  /** The bytes `sendRaw` is meant to deliver from offset `totalRead`, less
      the last one when the final remainder is exactly one byte long. */
  function RawDelivered(bytes: seq<byte>, totalRead: nat): seq<byte>
    requires totalRead <= |bytes|
  {
    if (|bytes| - totalRead) % PacketLength == 1 then bytes[totalRead..|bytes| - 1] else bytes[totalRead..]
  }

  /** What `sendRaw` transmits from offset `totalRead` when it does not
      fail: all the remaining bytes, except the very last one when the
      final remainder is exactly one byte long. */
  lemma {:induction false} RawPacketsContent(bytes: seq<byte>, totalRead: nat)
    requires totalRead <= |bytes| <= MaxArrayLength
    requires totalRead == 0 || totalRead < |bytes|
    requires RawPackets(bytes, totalRead).failure.None?
    ensures Flatten(RawPackets(bytes, totalRead).packets) == RawDelivered(bytes, totalRead)
    decreases |bytes| - totalRead
  {
    var n := |bytes|;
    RawPacketsUnfold(bytes, totalRead);
    if totalRead + PacketLength < n {
      RawPacketsContent(bytes, totalRead + PacketLength);
      RawStep(bytes, totalRead, RawPackets(bytes, totalRead + PacketLength).packets);
    } else if totalRead + 1 < n {
      RawLastPacket(bytes, totalRead);
    }
  }

  /** A final remainder of 2 to `PacketLength` bytes is sent whole. */
  lemma RawLastPacket(bytes: seq<byte>, totalRead: nat)
    requires totalRead + 1 < |bytes| <= totalRead + PacketLength
    ensures Flatten([bytes[totalRead..]]) == RawDelivered(bytes, totalRead)
  {
    assert (|bytes| - totalRead) % PacketLength != 1 by {
      assert 2 <= |bytes| - totalRead <= PacketLength;
    }
    assert Flatten([bytes[totalRead..]]) == bytes[totalRead..] + Flatten([]);
  }

  lemma SameRemainder(n: int, t: int)
    ensures (n - t) % PacketLength == (n - (t + PacketLength)) % PacketLength
  {
  }

  /** One full packet in front of the packets of the rest: the
      concatenation grows by that packet, and the remainder class is the
      same as the rest's. */
  lemma RawStep(bytes: seq<byte>, totalRead: nat, rest: seq<seq<byte>>)
    requires totalRead + PacketLength < |bytes|
    requires Flatten(rest) == RawDelivered(bytes, totalRead + PacketLength)
    ensures Flatten([bytes[totalRead..totalRead + PacketLength]] + rest) == RawDelivered(bytes, totalRead)
  {
    var head := bytes[totalRead..totalRead + PacketLength];
    var n := |bytes|;
    SameRemainder(n, totalRead);
    assert Flatten([head] + rest) == head + Flatten(rest) by {
      assert ([head] + rest)[1..] == rest;
    }
    if (n - totalRead) % PacketLength == 1 {
      assert bytes[totalRead..n - 1] == head + bytes[totalRead + PacketLength..n - 1];
    } else {
      assert bytes[totalRead..] == head + bytes[totalRead + PacketLength..];
    }
  }

  /** A one-byte message in raw mode produces no datagram at all. */
  lemma OneByteRawMessageIsLost(b: byte)
    ensures RawPackets([b], 0) == Sent([], None)
    ensures Flatten(RawPackets([b], 0).packets) != [b]
  {
  }

  /** More generally, every message whose length leaves a remainder of one
      byte loses that last byte, unless the send fails first. */
  lemma LastByteLost(bytes: seq<byte>)
    requires |bytes| <= MaxArrayLength
    requires |bytes| % PacketLength == 1
    requires !RawOverflowsFrom(|bytes|, 0)
    ensures RawPackets(bytes, 0).failure.None?
    ensures Flatten(RawPackets(bytes, 0).packets) == bytes[..|bytes| - 1]
  {
    RawFailsIffOverflow(bytes, 0);
    RawPacketsContent(bytes, 0);
  }

  /** The evident intent of `sendRaw`: send the remainder whenever it is
      non-empty. Its offsets are unbounded integers, so it also leaves out
      the overflow of very long messages. */
  function RawPacketsFixed(bytes: seq<byte>, totalRead: nat): (packets: seq<seq<byte>>)
    requires totalRead <= |bytes|
    ensures forall k | 0 <= k < |packets| - 1 :: |packets[k]| == PacketLength
    ensures forall k | 0 <= k < |packets| :: 1 <= |packets[k]| <= PacketLength
    ensures Flatten(packets) == bytes[totalRead..]
    decreases |bytes| - totalRead
  {
    if totalRead + PacketLength < |bytes| then
      [bytes[totalRead..totalRead + PacketLength]] + RawPacketsFixed(bytes, totalRead + PacketLength)
    else if totalRead >= |bytes| then []
    else [bytes[totalRead..]]
  }

  /** The correction changes nothing but the lost byte: when the final
      remainder is not a single byte and the send does not fail, `sendRaw`
      as written sends exactly the packets of the corrected definition. */
  lemma {:induction false} RawFixedAgrees(bytes: seq<byte>, totalRead: nat)
    requires totalRead <= |bytes| <= MaxArrayLength
    requires totalRead == 0 || totalRead < |bytes|
    requires (|bytes| - totalRead) % PacketLength != 1
    requires RawPackets(bytes, totalRead).failure.None?
    ensures RawPackets(bytes, totalRead).packets == RawPacketsFixed(bytes, totalRead)
    decreases |bytes| - totalRead
  {
    RawPacketsUnfold(bytes, totalRead);
    if totalRead + PacketLength < |bytes| {
      SameRemainder(|bytes|, totalRead);
      RawFixedAgrees(bytes, totalRead + PacketLength);
    }
  }
}

=== FILE: connection.dfy ===
/** One connection as the server side sees it (`UdpSocketServerImpl` over
    `UdpSocket`): the peer's address, the mode fixed at construction, the
    closed flag, and the two inbound queues `addData` fills. */
module Connection {
  import opened Types
  import opened Frames
  import opened Text
  import opened Chunking

  /** A UDP port number. */
  type Port = p: int | 0 <= p < 0x1_0000

  /** `inputData` holds raw datagrams, `inputDataFrames` parsed frames; only
      the one matching `reliable` is ever filled. */
  datatype Conn = Conn(host: string, port: Port, reliable: bool, closed: bool,
                       rawInbox: seq<seq<byte>>, frameInbox: seq<Frame>)
  {
    /** `getRemoteFullAddr`. */
    function FullAddr(): string {
      AddressKey(host, port)
    }
  }

  /** The textual peer key: host address, a colon, the port in decimal. */
  function AddressKey(host: string, port: Port): string {
    host + ":" + DecimalText(port)
  }

  /** The last colon of a key splits it into the host and the port text,
      and the port text reads back as the port. */
  lemma AddressKeySplits(host: string, port: Port)
    ensures var k := AddressKey(host, port);
            && |k| == |host| + 1 + |DecimalText(port)|
            && k[..|host|] == host
            && k[|host|] == ':'
            && (forall i | |host| < i < |k| :: k[i] != ':')
            && ParseInt(k[|host| + 1..]) == Some(port)
  {
    var k := AddressKey(host, port);
    DecimalHasNoColon(port);
    ColonBeforeSuffix(host, DecimalText(port));
    assert k[|host| + 1..] == DecimalText(port);
    ParseIntOfDecimal(port);
  }

  /** A decimal text never contains a colon. */
  lemma DecimalHasNoColon(n: nat)
    ensures ':' !in DecimalText(n)
  {
    assert AllDigits(DecimalText(n));
  }

  /** In `a + ":" + s` with colon-free `s`, the colon just before `s` is
      the last one. */
  lemma ColonBeforeSuffix(a: string, s: string)
    requires ':' !in s
    ensures var k := a + [':'] + s;
            && k[|k| - |s| - 1] == ':'
            && forall i | |k| - |s| <= i < |k| :: k[i] != ':'
  {
    var k := a + [':'] + s;
    forall i | |k| - |s| <= i < |k| ensures k[i] != ':' {
      assert k[i] == s[i - (|k| - |s|)];
    }
  }

  /** Two texts of the form `a + ":" + s` with colon-free `s` agree part
      by part: the last colon is where they split. */
  lemma LastColonSplits(a1: string, s1: string, a2: string, s2: string)
    requires a1 + [':'] + s1 == a2 + [':'] + s2
    requires ':' !in s1 && ':' !in s2
    ensures a1 == a2 && s1 == s2
  {
    var k := a1 + [':'] + s1;
    ColonBeforeSuffix(a1, s1);
    ColonBeforeSuffix(a2, s2);
    assert |s1| == |s2|;
    assert s1 == k[|k| - |s1|..];
    assert s2 == k[|k| - |s2|..];
    assert a1 == k[..|a1|];
    assert a2 == k[..|a2|];
  }

  /** Distinct peers have distinct keys, even for IPv6 hosts that contain
      colons: the port text has none, so the last colon of a key separates
      host from port. */
  lemma KeyInjective(h1: string, p1: Port, h2: string, p2: Port)
    requires AddressKey(h1, p1) == AddressKey(h2, p2)
    ensures h1 == h2 && p1 == p2
  {
    DecimalHasNoColon(p1);
    DecimalHasNoColon(p2);
    LastColonSplits(h1, DecimalText(p1), h2, DecimalText(p2));
    DecimalTextInjective(p1, p2);
  }

  /** The constructor: an open connection with empty queues, its mode given
      by the server. */
  function Open(host: string, port: Port, reliable: bool): (c: Conn)
    ensures !c.closed && c.reliable == reliable
    ensures var k := c.FullAddr();
            && |k| > |host| && k[..|host|] == host && k[|host|] == ':'
            && ParseInt(k[|host| + 1..]) == Some(port)
    ensures c.rawInbox == [] && c.frameInbox == []
  {
    AddressKeySplits(host, port);
    Conn(host, port, reliable, false, [], [])
  }

  /** `close` only raises the flag; the queues are kept. */
  function Close(c: Conn): (r: Conn)
    ensures r.closed
    ensures r.(closed := c.closed) == c
  {
    c.(closed := true)
  }

  lemma CloseIdempotent(c: Conn)
    ensures Close(Close(c)) == Close(c)
  {
  }

  /** The outcome of `addData`: the datagram was queued, the connection is
      closed (the caller then forgets it), or frame parsing threw. */
  datatype Added = Accepted(conn: Conn) | Refused | Threw(error: Exception)

  /** `addData`: a closed connection refuses; raw mode queues the datagram
      as is; reliable mode parses it into a frame and queues the frame. */
  function AddData(c: Conn, bytes: seq<byte>): (r: Added)
    ensures r.Refused? <==> c.closed
    ensures r.Threw? <==> !c.closed && c.reliable && |bytes| < HeaderLength
    ensures r.Threw? ==> r.error == IndexOutOfBounds
    ensures r.Accepted? && !c.reliable ==> r.conn == c.(rawInbox := c.rawInbox + [bytes])
    ensures r.Accepted? && c.reliable ==>
              r.conn == c.(frameInbox := c.frameInbox + [Parse(bytes).value])
              && ToBytes(r.conn.frameInbox[|c.frameInbox|]) == bytes
  {
    if c.closed then Refused
    else if !c.reliable then Accepted(c.(rawInbox := c.rawInbox + [bytes]))
    else
      match Parse(bytes)
      case Err(e) => Threw(e)
      case Ok(f) =>
        ToBytesParse(bytes);
        Accepted(c.(frameInbox := c.frameInbox + [f]))
  }

  /** A closed connection refuses every datagram. */
  lemma ClosedRefuses(c: Conn, bytes: seq<byte>)
    ensures AddData(Close(c), bytes) == Refused
  {
  }

  /** `recvRaw` once its wait is over (the queue is non-empty or the
      connection was closed): the oldest datagram is taken; with nothing
      queued the result is `None`. A connection closed while datagrams are
      still queued hands them out. */
  function RecvRaw(c: Conn): (r: (Option<seq<byte>>, Conn))
    requires c.closed || |c.rawInbox| > 0
    ensures r.0.None? <==> |c.rawInbox| == 0
    ensures r.0.None? ==> r.1 == c
    ensures r.0.Some? ==> c.rawInbox == [r.0.value] + r.1.rawInbox
    ensures r.1.(rawInbox := c.rawInbox) == c
  {
    if |c.rawInbox| == 0 then (None, c) else (Some(c.rawInbox[0]), c.(rawInbox := c.rawInbox[1..]))
  }

  /** `recv` in raw mode: nothing from a closed connection, otherwise
      `recvRaw`, whose wait requires a queued datagram. */
  function RecvRawMode(c: Conn): (r: (Option<seq<byte>>, Conn))
    requires !c.reliable
    requires c.closed || |c.rawInbox| > 0
    ensures c.closed ==> r == (None, c)
    ensures !c.closed ==> r.0 == Some(c.rawInbox[0]) && r.1.rawInbox == c.rawInbox[1..]
  {
    if c.closed then (None, c) else RecvRaw(c)
  }

  /** Datagrams handed to `addData` one after another. */
  function AddAll(c: Conn, ds: seq<seq<byte>>): (r: Added)
    decreases |ds|
  {
    if |ds| == 0 then Accepted(c)
    else
      match AddData(c, ds[0])
      case Accepted(next) => AddAll(next, ds[1..])
      case other => other
  }

  /** `n` raw receives in a row, collecting what they return. */
  function RecvMany(c: Conn, n: nat): (r: (seq<seq<byte>>, Conn))
    requires !c.reliable && !c.closed && n <= |c.rawInbox|
    ensures |r.0| == n
    decreases n
  {
    if n == 0 then ([], c)
    else
      var (d, next) := RecvRawMode(c);
      var (rest, last) := RecvMany(next, n - 1);
      ([d.value] + rest, last)
  }

  /** An open raw connection queues every datagram in arrival order. */
  lemma {:induction false} AddAllQueues(c: Conn, ds: seq<seq<byte>>)
    requires !c.reliable && !c.closed
    ensures AddAll(c, ds) == Accepted(c.(rawInbox := c.rawInbox + ds))
    decreases |ds|
  {
    if |ds| > 0 {
      var next := c.(rawInbox := c.rawInbox + [ds[0]]);
      AddAllQueues(next, ds[1..]);
      assert c.rawInbox + [ds[0]] + ds[1..] == c.rawInbox + ds;
    }
  }

  /** Raw receives hand out queued datagrams oldest first. */
  lemma {:induction false} RecvManyTakesPrefix(c: Conn, n: nat)
    requires !c.reliable && !c.closed && n <= |c.rawInbox|
    ensures RecvMany(c, n).0 == c.rawInbox[..n]
    ensures RecvMany(c, n).1 == c.(rawInbox := c.rawInbox[n..])
    decreases n
  {
    if n > 0 {
      var next := c.(rawInbox := c.rawInbox[1..]);
      RecvManyTakesPrefix(next, n - 1);
      assert c.rawInbox[..n] == [c.rawInbox[0]] + c.rawInbox[1..][..n - 1];
      assert c.rawInbox[1..][n - 1..] == c.rawInbox[n..];
    }
  }

  /** Raw mode is first-in first-out: every datagram delivered to an open
      connection with an empty queue comes back, in delivery order. */
  lemma RawFifo(c: Conn, ds: seq<seq<byte>>)
    requires !c.reliable && !c.closed && c.rawInbox == []
    ensures AddAll(c, ds) == Accepted(c.(rawInbox := ds))
    ensures RecvMany(AddAll(c, ds).conn, |ds|).0 == ds
  {
    AddAllQueues(c, ds);
    RecvManyTakesPrefix(AddAll(c, ds).conn, |ds|);
    assert ds[..|ds|] == ds;
  }

  /** What `send` puts on the wire, or the exception it ends with before
      sending anything. */
  datatype Outgoing =
    | Nothing
    | RawOut(sent: Sent)
    | FramedOut(frames: seq<Frame>)
    | Failed(error: Exception)

  /** `send` up to the first transmission: nothing on a closed connection;
      in raw mode the packets of `sendRaw` as written, which lose a final
      one-byte remainder and fail part-way on messages too long for the
      32-bit loop guard; in reliable mode the framing of the message, each
      frame sent as its encoding, or the exception of the overflowing
      framing loop. */
  method Send(c: Conn, msg: seq<byte>) returns (out: Outgoing)
    requires |msg| <= MaxArrayLength
    ensures c.closed <==> out.Nothing?
    ensures !c.closed && !c.reliable ==> out.RawOut?
    ensures out.RawOut? ==> (out.sent.failure.Some? <==> |msg| >= 2147483137)
    ensures out.RawOut? && out.sent.failure.None? && |msg| % PacketLength == 1 ==> Flatten(out.sent.packets) == msg[..|msg| - 1]
    ensures out.RawOut? && out.sent.failure.None? && |msg| % PacketLength != 1 ==> Flatten(out.sent.packets) == msg
    ensures out.RawOut? ==> forall k | 0 <= k < |out.sent.packets| :: 2 <= |out.sent.packets[k]| <= PacketLength
    ensures !c.closed && c.reliable ==> out.FramedOut? || out.Failed?
    ensures out.Failed? <==> !c.closed && c.reliable && |msg| >= 2147482621
    ensures out.Failed? ==> out.error == IllegalArgument
    ensures out.FramedOut? ==> IsChunking(msg, out.frames)
  {
    if c.closed {
      out := Nothing;
    } else if !c.reliable {
      var sent := RawPackets(msg, 0);
      RawFailsIffOverflow(msg, 0);
      RawOverflowThreshold(|msg|);
      if sent.failure.None? {
        RawPacketsContent(msg, 0);
        assert msg[0..] == msg;
      }
      out := RawOut(sent);
    } else {
      var r := Chunk(msg);
      ChunkingOverflowThreshold(|msg|);
      if r.Ok? {
        out := FramedOut(r.value);
      } else {
        out := Failed(r.error);
      }
    }
  }

  /** In reliable mode every frame `send` transmits arrives, if it arrives,
      as the same frame: its encoding parses back to it. */
  lemma FramesSurviveTheWire(msg: seq<byte>, frames: seq<Frame>)
    requires IsChunking(msg, frames)
    ensures forall i | 0 <= i < |frames| :: Parse(ToBytes(frames[i])) == Ok(frames[i])
  {
    forall i | 0 <= i < |frames| ensures Parse(ToBytes(frames[i])) == Ok(frames[i]) {
      ParseToBytes(frames[i]);
    }
  }
}

=== FILE: frames.dfy ===
/** The wire format of one protocol frame (Frame.java): one type byte, the
    sequence number as four big-endian bytes, then the payload bytes with no
    length prefix. */
module Frames {
  import opened Types

  /** Frame type codes. */
  const Data: i32 := 0
  const Start: i32 := 1
  const End: i32 := 2
  const Report: i32 := 3

  /** The header length: type byte plus four sequence bytes. */
  const HeaderLength: nat := 5

  /** `type` and `seq` are Java ints; only the low byte of `type` goes on
      the wire. */
  datatype Frame = Frame(ftype: i32, seqNum: i32, payload: seq<byte>)

  /** The unsigned number four bytes spell, most significant first. */
  function BigEndian(b: seq<byte>): (u: nat)
    requires |b| == 4
    ensures u < 0x1_0000_0000
  {
    (b[0] as int) * 0x100_0000 + (b[1] as int) * 0x1_0000 + (b[2] as int) * 0x100 + b[3] as int
  }

  /** Reads a 32-bit pattern as a Java int (two's complement). */
  function ToInt32(u: nat): (v: i32)
    requires u < 0x1_0000_0000
    ensures v % 0x1_0000_0000 == u
  {
    if u <= MaxInt32 then u else u - 0x1_0000_0000
  }

  /** `intToByteArray`: `(byte)(value >> k)` for k = 24, 16, 8, 0. An
      arithmetic right shift is floor division, and the cast keeps the low
      eight bits. */
  function IntToBytes(v: i32): (b: seq<byte>)
    ensures |b| == 4
    ensures BigEndian(b) == v % 0x1_0000_0000
  {
    ShiftsSpellValue(v);
    [(v / 0x100_0000) % 0x100, (v / 0x1_0000) % 0x100, (v / 0x100) % 0x100, v % 0x100]
  }

  /** The four shifted-and-truncated bytes of `v` spell `v` modulo 2^32. */
  lemma ShiftsSpellValue(v: int)
    ensures ((v / 0x100_0000) % 0x100) * 0x100_0000 + ((v / 0x1_0000) % 0x100) * 0x1_0000
            + ((v / 0x100) % 0x100) * 0x100 + v % 0x100 == v % 0x1_0000_0000
  {
    var q1, b3 := v / 0x100, v % 0x100;
    var q2, b2 := q1 / 0x100, q1 % 0x100;
    var q3, b1 := q2 / 0x100, q2 % 0x100;
    var q4, b0 := q3 / 0x100, q3 % 0x100;
    assert v == q2 * 0x1_0000 + b2 * 0x100 + b3;
    assert v / 0x1_0000 == q2;
    assert v == q3 * 0x100_0000 + b1 * 0x1_0000 + b2 * 0x100 + b3;
    assert v / 0x100_0000 == q3;
    assert v == q4 * 0x1_0000_0000 + b0 * 0x100_0000 + b1 * 0x1_0000 + b2 * 0x100 + b3;
  }

  /** `getIntFrom4Bytes`: the four bytes from `start`, each masked with
      0xff and shifted into place, OR-ed into an int. The fields do not
      overlap, so the OR is a sum, and a top byte of 0x80 or more lands in
      the sign bit. */
  function IntFromBytes(b: seq<byte>, start: nat): (v: i32)
    requires start + 4 <= |b|
    ensures v % 0x1_0000_0000 == BigEndian(b[start..start + 4])
  {
    ToInt32(BigEndian(b[start..start + 4]))
  }

  /** Reading the 32-bit pattern of a Java int gives the int back. */
  lemma ToInt32OfPattern(v: i32)
    ensures ToInt32(v % 0x1_0000_0000) == v
  {
    if v < 0 {
      assert v % 0x1_0000_0000 == v + 0x1_0000_0000;
    }
  }

  lemma IntBytesRoundTrip(v: i32)
    ensures IntFromBytes(IntToBytes(v), 0) == v
  {
    var b := IntToBytes(v);
    assert b[0..4] == b;
    ToInt32OfPattern(v);
  }

  lemma BytesIntRoundTrip(b: seq<byte>)
    requires |b| == 4
    ensures IntToBytes(IntFromBytes(b, 0)) == b
  {
    assert b[0..4] == b;
    var c := IntToBytes(IntFromBytes(b, 0));
    BigEndianDigits(b);
    BigEndianDigits(c);
  }

  /** The bytes can be read back off the number they spell. */
  lemma BigEndianDigits(b: seq<byte>)
    requires |b| == 4
    ensures BigEndian(b) % 0x100 == b[3]
    ensures (BigEndian(b) / 0x100) % 0x100 == b[2]
    ensures (BigEndian(b) / 0x1_0000) % 0x100 == b[1]
    ensures BigEndian(b) / 0x100_0000 == b[0]
  {
    var u := BigEndian(b);
    var q1 := (b[0] as int) * 0x1_0000 + (b[1] as int) * 0x100 + b[2] as int;
    var q2 := (b[0] as int) * 0x100 + b[1] as int;
    assert u == q1 * 0x100 + b[3];
    assert u / 0x100 == q1;
    assert q1 == q2 * 0x100 + b[2];
    assert u == q2 * 0x1_0000 + (b[2] as int) * 0x100 + b[3];
    assert u / 0x1_0000 == q2;
    assert u / 0x100_0000 == b[0];
  }

  /** `Frame.parse`. The source indexes the array without a length check, so
      input shorter than the header raises ArrayIndexOutOfBoundsException. */
  function Parse(bytes: seq<byte>): (r: Result<Frame>)
    ensures r.Err? <==> |bytes| < HeaderLength
    ensures r.Err? ==> r.error == IndexOutOfBounds
    ensures r.Ok? ==> r.value.payload == bytes[HeaderLength..]
    ensures r.Ok? ==> -128 <= r.value.ftype <= 127 && r.value.ftype % 0x100 == bytes[0]
    ensures r.Ok? ==> r.value.seqNum % 0x1_0000_0000 == BigEndian(bytes[1..5])
  {
    if |bytes| < HeaderLength then Err(IndexOutOfBounds)
    else Ok(Frame(SignedByte(bytes[0]), IntFromBytes(bytes, 1), bytes[HeaderLength..]))
  }

  /** `Frame.toBytes`, as a pure function (the source reuses one shared
      buffer). `ByteArrayOutputStream.write(int)` keeps the low byte of the
      type. */
  function ToBytes(f: Frame): (b: seq<byte>)
    ensures |b| == HeaderLength + |f.payload|
    ensures b[0] == f.ftype % 0x100
    ensures BigEndian(b[1..5]) == f.seqNum % 0x1_0000_0000
    ensures b[HeaderLength..] == f.payload
  {
    [f.ftype % 0x100] + IntToBytes(f.seqNum) + f.payload
  }

  /** Decoding an encoded frame gives it back exactly when its type fits in
      a signed byte; this covers the protocol's types 0 to 3. */
  lemma ParseToBytes(f: Frame)
    ensures Parse(ToBytes(f)) == Ok(f) <==> -128 <= f.ftype <= 127
  {
    var b := ToBytes(f);
    assert b[1..5] == IntToBytes(f.seqNum);
    IntBytesRoundTrip(f.seqNum);
    assert IntToBytes(f.seqNum)[0..4] == b[1..5];
  }

  /** Encoding a decoded datagram reproduces every byte of it. */
  lemma ToBytesParse(bytes: seq<byte>)
    requires |bytes| >= HeaderLength
    ensures Parse(bytes).Ok? && ToBytes(Parse(bytes).value) == bytes
  {
    var f := Parse(bytes).value;
    assert bytes[1..5] == bytes[1..][0..4];
    BytesIntRoundTrip(bytes[1..5]);
    assert bytes[1..5][0..4] == bytes[1..5];
    assert bytes == [bytes[0]] + bytes[1..5] + bytes[5..];
  }

  /** A type code of 128 or more comes back negative. */
  lemma ParseHighTypeIsNegative(f: Frame)
    requires 128 <= f.ftype <= 255
    ensures Parse(ToBytes(f)).Ok? && Parse(ToBytes(f)).value.ftype == f.ftype - 256
  {
  }
}

=== FILE: multiplexer.dfy ===
/** The server side (`UdpServerSocket`): one listening socket whose
    datagrams are routed by sender address to per-peer connections, created
    on a peer's first datagram and handed out by `accept`. */
module Multiplexer {
  import opened Types
  import opened Frames
  import opened Chunking
  import opened Connection

  /** One received datagram: the sender's address and the bytes. */
  datatype Datagram = Datagram(host: string, port: Port, payload: seq<byte>)

  /** `ongoingConnections` maps a peer key to a connection, here named by
      its position in `conns`, the list of every connection created so far.
      `untouched` lists the connections not yet handed out by `accept`, in
      creation order. */
  datatype Server = Server(reliable: bool, closed: bool, registry: map<string, nat>,
                           conns: seq<Conn>, untouched: seq<nat>)

  predicate Distinct(ids: seq<nat>) {
    forall a, b | 0 <= a < b < |ids| :: ids[a] != ids[b]
  }

  /** The server's invariant: every registered key names a connection to
      that very peer; every connection has the server's mode; the pending
      list names existing connections, each once. */
  predicate Valid(s: Server) {
    && (forall k | k in s.registry :: s.registry[k] < |s.conns| && s.conns[s.registry[k]].FullAddr() == k)
    && (forall i | 0 <= i < |s.conns| :: s.conns[i].reliable == s.reliable)
    && (forall i | 0 <= i < |s.untouched| :: s.untouched[i] < |s.conns|)
    && Distinct(s.untouched)
  }

  /** The constructor: open, no connections, and the given mode. */
  function NewServer(reliable: bool): (s: Server)
    ensures Valid(s)
    ensures !s.closed && s.reliable == reliable
    ensures s.registry == map[] && s.conns == [] && s.untouched == []
  {
    Server(reliable, false, map[], [], [])
  }

  /** The one-argument constructor selects the reliable mode. */
  function DefaultServer(): (s: Server)
    ensures Valid(s)
    ensures s.reliable && !s.closed
    ensures s.registry == map[] && s.conns == [] && s.untouched == []
  {
    NewServer(true)
  }

  /** The receive buffer holds `MaxUdpPacketSize` bytes; a longer datagram
      is cut to that length. */
  function Truncate(payload: seq<byte>): (r: seq<byte>)
    ensures |r| <= MaxUdpPacketSize
    ensures r <= payload
    ensures |payload| <= MaxUdpPacketSize ==> r == payload
  {
    if |payload| <= MaxUdpPacketSize then payload else payload[..MaxUdpPacketSize]
  }

  /** Find or create the connection for a peer: a known key gives its
      connection; an unknown key gets a new open connection in the
      server's mode, registered under the key and queued for `accept`. */
  function Admit(s: Server, host: string, port: Port): (r: (Server, nat))
    requires Valid(s)
    ensures var (t, id) := r;
            && Valid(t)
            && id < |t.conns|
            && AddressKey(host, port) in t.registry && t.registry[AddressKey(host, port)] == id
            && t.conns[id].FullAddr() == AddressKey(host, port)
            && t.reliable == s.reliable && t.closed == s.closed
    ensures AddressKey(host, port) in s.registry ==> r == (s, s.registry[AddressKey(host, port)])
    ensures AddressKey(host, port) !in s.registry ==>
              var (t, id) := r;
              && id == |s.conns|
              && t.conns == s.conns + [Open(host, port, s.reliable)]
              && t.registry == s.registry[AddressKey(host, port) := id]
              && t.untouched == s.untouched + [id]
  {
    var key := AddressKey(host, port);
    if key in s.registry then (s, s.registry[key])
    else
      var id := |s.conns|;
      var t := s.(conns := s.conns + [Open(host, port, s.reliable)],
                  registry := s.registry[key := id],
                  untouched := s.untouched + [id]);
      (t, id)
  }

  /** Replacing a connection by one with the same peer and mode keeps the
      server valid. */
  lemma UpdateKeepsValid(t: Server, id: nat, c: Conn)
    requires Valid(t) && id < |t.conns|
    requires c.FullAddr() == t.conns[id].FullAddr() && c.reliable == t.reliable
    ensures Valid(t.(conns := t.conns[id := c]))
  {
  }

  /** Forgetting a key keeps the server valid. */
  lemma ForgetKeepsValid(t: Server, key: string)
    requires Valid(t)
    ensures Valid(t.(registry := t.registry - {key}))
  {
  }

  /** One iteration of the listening loop. A closed server has left the
      loop and ignores the datagram. Otherwise the datagram goes to the
      peer's connection, created if new; a connection that refuses it
      (closed) is forgotten, so the peer's next datagram creates a fresh
      one; a datagram that fails to parse as a frame closes the server. */
  function Receive(s: Server, d: Datagram): (r: Server)
    requires Valid(s)
    ensures Valid(r)
    ensures r.reliable == s.reliable
    ensures s.closed ==> r == s
  {
    if s.closed then s
    else
      var key := AddressKey(d.host, d.port);
      var (t, id) := Admit(s, d.host, d.port);
      match AddData(t.conns[id], Truncate(d.payload))
      case Accepted(c) =>
        UpdateKeepsValid(t, id, c);
        t.(conns := t.conns[id := c])
      case Refused =>
        ForgetKeepsValid(t, key);
        t.(registry := t.registry - {key})
      case Threw(_) => t.(closed := true)
  }

  /** Existing connections keep their place and their peer. */
  lemma ReceiveKeepsConnections(s: Server, d: Datagram)
    requires Valid(s)
    ensures |Receive(s, d).conns| >= |s.conns|
    ensures forall i | 0 <= i < |s.conns| :: Receive(s, d).conns[i].FullAddr() == s.conns[i].FullAddr()
  {
  }

  /** Routing: on an open server a datagram from a known, open peer is
      queued on that peer's connection and on no other; nothing else
      changes. */
  lemma ReceiveRoutesByAddress(s: Server, d: Datagram)
    requires Valid(s) && !s.closed
    requires AddressKey(d.host, d.port) in s.registry
    requires !s.conns[s.registry[AddressKey(d.host, d.port)]].closed
    requires s.reliable ==> |Truncate(d.payload)| >= HeaderLength
    ensures var id := s.registry[AddressKey(d.host, d.port)];
            var r := Receive(s, d);
            && r.registry == s.registry && r.untouched == s.untouched && !r.closed
            && |r.conns| == |s.conns|
            && (forall j | 0 <= j < |s.conns| && j != id :: r.conns[j] == s.conns[j])
            && (!s.reliable ==> r.conns[id].rawInbox == s.conns[id].rawInbox + [Truncate(d.payload)])
            && (s.reliable ==> r.conns[id].frameInbox == s.conns[id].frameInbox + [Parse(Truncate(d.payload)).value])
  {
  }

  /** A first datagram from a new peer creates one connection for it,
      queued for `accept` after the ones already waiting; in raw mode the
      datagram is its first queued datagram. */
  lemma NewPeerGetsConnection(s: Server, d: Datagram)
    requires Valid(s) && !s.closed
    requires AddressKey(d.host, d.port) !in s.registry
    ensures var r := Receive(s, d);
            && |r.conns| == |s.conns| + 1
            && r.conns[..|s.conns|] == s.conns
            && r.untouched == s.untouched + [|s.conns|]
            && r.conns[|s.conns|].FullAddr() == AddressKey(d.host, d.port)
            && (!s.reliable ==> r.conns[|s.conns|].rawInbox == [Truncate(d.payload)] && !r.closed)
  {
    var (t, id) := Admit(s, d.host, d.port);
    assert t.conns[id] == Open(d.host, d.port, s.reliable);
  }

  /** In reliable mode a datagram too short to hold a frame header closes
      the whole server (the exception ends the listening loop). */
  lemma ShortFrameClosesServer(s: Server, d: Datagram)
    requires Valid(s) && !s.closed && s.reliable
    requires |d.payload| < HeaderLength
    requires AddressKey(d.host, d.port) in s.registry ==> !s.conns[s.registry[AddressKey(d.host, d.port)]].closed
    ensures Receive(s, d).closed
  {
  }

  /** A peer whose connection was closed is forgotten on its next
      datagram, and the datagram after that opens a new connection. */
  lemma EvictThenRecreate(s: Server, d: Datagram)
    requires Valid(s) && !s.closed
    requires AddressKey(d.host, d.port) in s.registry
    requires s.conns[s.registry[AddressKey(d.host, d.port)]].closed
    ensures Receive(s, d) == s.(registry := s.registry - {AddressKey(d.host, d.port)})
    ensures var r := Receive(Receive(s, d), d);
            && |r.conns| == |s.conns| + 1
            && r.registry[AddressKey(d.host, d.port)] == |s.conns|
            && !r.conns[|s.conns|].closed
  {
  }

  /** Datagrams from distinct peers are routed to distinct connections. */
  lemma DistinctPeersDistinctConnections(s: Server, h1: string, p1: Port, h2: string, p2: Port)
    requires Valid(s)
    requires AddressKey(h1, p1) in s.registry && AddressKey(h2, p2) in s.registry
    requires h1 != h2 || p1 != p2
    ensures s.registry[AddressKey(h1, p1)] != s.registry[AddressKey(h2, p2)]
  {
    if AddressKey(h1, p1) == AddressKey(h2, p2) {
      KeyInjective(h1, p1, h2, p2);
    }
  }

  /** The listening loop over a sequence of datagrams. */
  function ReceiveAll(s: Server, ds: seq<Datagram>): (r: Server)
    requires Valid(s)
    ensures Valid(r)
    ensures r.reliable == s.reliable
    decreases |ds|
  {
    if |ds| == 0 then s else ReceiveAll(Receive(s, ds[0]), ds[1..])
  }

  /** Once closed, the server stays closed whatever arrives, and ignores
      every datagram. */
  lemma {:induction false} ClosedStaysClosed(s: Server, ds: seq<Datagram>)
    requires Valid(s) && s.closed
    ensures ReceiveAll(s, ds) == s
    decreases |ds|
  {
    if |ds| > 0 {
      ClosedStaysClosed(Receive(s, ds[0]), ds[1..]);
    }
  }

  /** Connections are never removed or reordered: every connection ever
      created keeps its place, so a handle from `accept` stays valid. */
  lemma {:induction false} ConnectionsOnlyGrow(s: Server, ds: seq<Datagram>)
    requires Valid(s)
    ensures |ReceiveAll(s, ds).conns| >= |s.conns|
    ensures forall i | 0 <= i < |s.conns| :: ReceiveAll(s, ds).conns[i].FullAddr() == s.conns[i].FullAddr()
    decreases |ds|
  {
    if |ds| > 0 {
      ReceiveKeepsConnections(s, ds[0]);
      ConnectionsOnlyGrow(Receive(s, ds[0]), ds[1..]);
    }
  }

  /** The identities `lo`, `lo + 1`, ..., `hi - 1`. */
  function Range(lo: nat, hi: nat): seq<nat>
    requires lo <= hi
  {
    seq(hi - lo, i requires 0 <= i < hi - lo => lo + i)
  }

  /** Receiving leaves the pending list and the number of connections as
      finding or creating the peer's connection left them. */
  lemma ReceiveAfterAdmit(s: Server, d: Datagram)
    requires Valid(s) && !s.closed
    ensures var t := Admit(s, d.host, d.port).0;
            var r := Receive(s, d);
            r.untouched == t.untouched && |r.conns| == |t.conns|
  {
  }

  /** One datagram creates at most one connection, and a created
      connection is queued for `accept` at the back. */
  lemma ReceiveQueuesCreated(s: Server, d: Datagram)
    requires Valid(s)
    ensures var r := Receive(s, d);
            && |s.conns| <= |r.conns| <= |s.conns| + 1
            && r.untouched == s.untouched + Range(|s.conns|, |r.conns|)
  {
    if s.closed {
      assert Range(|s.conns|, |s.conns|) == [];
    } else {
      ReceiveAfterAdmit(s, d);
      if AddressKey(d.host, d.port) !in s.registry {
        assert Range(|s.conns|, |s.conns| + 1) == [|s.conns|];
      } else {
        assert Range(|s.conns|, |s.conns|) == [];
      }
    }
  }

  /** Pending lists that grew by consecutive identity ranges grew by
      their union. */
  lemma PendingCompose(u0: seq<nat>, u1: seq<nat>, u2: seq<nat>, a: nat, b: nat, c: nat)
    requires a <= b <= c
    requires u1 == u0 + Range(a, b) && u2 == u1 + Range(b, c)
    ensures u2 == u0 + Range(a, c)
  {
    assert Range(a, b) + Range(b, c) == Range(a, c);
  }

  /** Every connection the listening loop creates is queued for `accept`
      exactly once, in creation order: with no `accept` in between, the
      pending list grows by exactly the new connections. Interleaved
      `accept` calls are covered by `AcceptedPlusPendingIsCreated`. */
  lemma {:induction false} CreatedArePending(s: Server, ds: seq<Datagram>)
    requires Valid(s)
    ensures var r := ReceiveAll(s, ds);
            && |r.conns| >= |s.conns|
            && r.untouched == s.untouched + Range(|s.conns|, |r.conns|)
    decreases |ds|
  {
    if |ds| == 0 {
      assert Range(|s.conns|, |s.conns|) == [];
      assert s.untouched + [] == s.untouched;
    } else {
      var t := Receive(s, ds[0]);
      var r := ReceiveAll(t, ds[1..]);
      ReceiveQueuesCreated(s, ds[0]);
      CreatedArePending(t, ds[1..]);
      PendingCompose(s.untouched, t.untouched, r.untouched, |s.conns|, |t.conns|, |r.conns|);
    }
  }

  /** `accept` once its wait is over: `None` from a closed server,
      otherwise the most recently created connection not yet handed out
      (the pending list is taken from its back). */
  function Accept(s: Server): (r: (Option<nat>, Server))
    requires Valid(s)
    requires s.closed || |s.untouched| > 0
    ensures Valid(r.1)
    ensures s.closed ==> r == (None, s)
    ensures !s.closed ==> r.0.Some? && r.0.value < |s.conns|
    ensures !s.closed ==> r.1 == s.(untouched := s.untouched[..|s.untouched| - 1])
    ensures !s.closed ==> r.0.value in s.untouched && r.0.value !in r.1.untouched
  {
    if s.closed then (None, s)
    else
      var n := |s.untouched|;
      (Some(s.untouched[n - 1]), s.(untouched := s.untouched[..n - 1]))
  }

  /** What happens to a server: a datagram through the listening loop, an
      `accept` call returning, or `close`. */
  datatype ServerEvent =
    | Recv(d: Datagram)
    | Acc
    | Shut

  /** The server after a sequence of events, and the connections
      `accept` handed out, in the order it handed them out. An `accept` on
      an open server with nothing pending waits until a connection is
      queued, so an `Acc` that would wait has not returned yet and is
      skipped. */
  function Serve(s: Server, es: seq<ServerEvent>): (r: (Server, seq<nat>))
    requires Valid(s)
    ensures Valid(r.0)
    ensures |r.0.conns| >= |s.conns|
    ensures forall i | 0 <= i < |r.1| :: r.1[i] < |r.0.conns|
    decreases |es|
  {
    if |es| == 0 then (s, [])
    else match es[0]
      case Recv(d) =>
        ReceiveKeepsConnections(s, d);
        Serve(Receive(s, d), es[1..])
      case Acc =>
        if !s.closed && |s.untouched| == 0 then Serve(s, es[1..])
        else
          var (a, t) := Accept(s);
          var (u, acc) := Serve(t, es[1..]);
          (u, if a.Some? then [a.value] + acc else acc)
      case Shut => Serve(Close(s), es[1..])
  }

  /** Whatever datagrams, `accept` calls and `close` happen, the
      connections handed out by `accept` together with those still pending
      are exactly the ones pending at the start plus the ones created. */
  lemma {:induction false} AcceptedPlusPendingIsCreated(s: Server, es: seq<ServerEvent>)
    requires Valid(s)
    ensures var (r, acc) := Serve(s, es);
            && |acc| + |r.untouched| == |s.untouched| + (|r.conns| - |s.conns|)
            && multiset(acc) + multiset(r.untouched)
               == multiset(s.untouched) + multiset(Range(|s.conns|, |r.conns|))
  {
    var (r, acc) := Serve(s, es);
    PendingAccounting(s, es);
    calc {
      |acc| + |r.untouched|;
      |multiset(acc) + multiset(r.untouched)|;
      |multiset(s.untouched) + multiset(Range(|s.conns|, |r.conns|))|;
      |s.untouched| + |Range(|s.conns|, |r.conns|)|;
    }
  }

  /** The multiset half of `AcceptedPlusPendingIsCreated`, by induction
      over the events. */
  lemma {:induction false} PendingAccounting(s: Server, es: seq<ServerEvent>)
    requires Valid(s)
    ensures var (r, acc) := Serve(s, es);
            multiset(acc) + multiset(r.untouched)
            == multiset(s.untouched) + multiset(Range(|s.conns|, |r.conns|))
    decreases |es|
  {
    if |es| == 0 {
      assert Range(|s.conns|, |s.conns|) == [];
    } else {
      match es[0]
      case Recv(d) =>
        var t := Receive(s, d);
        var (r, acc) := Serve(t, es[1..]);
        PendingAccounting(t, es[1..]);
        ReceiveQueuesCreated(s, d);
        CreatedJoinPending(s.untouched, t.untouched, r.untouched, acc, |s.conns|, |t.conns|, |r.conns|);
      case Acc =>
        if !s.closed && |s.untouched| > 0 {
          var t := Accept(s).1;
          var (r, acc) := Serve(t, es[1..]);
          PendingAccounting(t, es[1..]);
          AcceptedLeavesPending(s.untouched, t.untouched, r.untouched, acc, Accept(s).0.value,
                                multiset(Range(|s.conns|, |r.conns|)));
        } else {
          PendingAccounting(s, es[1..]);
        }
      case Shut =>
        PendingAccounting(Close(s), es[1..]);
    }
  }

  /** None lost, none handed out twice: every connection created while
      serving is either handed out by `accept` or still pending, no
      connection is handed out twice, and none handed out is still
      pending. */
  lemma NoConnectionLostOrDuplicated(s: Server, es: seq<ServerEvent>)
    requires Valid(s)
    ensures var (r, acc) := Serve(s, es);
            && (forall id | |s.conns| <= id < |r.conns| :: id in acc || id in r.untouched)
            && Distinct(acc)
            && (forall i | 0 <= i < |acc| :: acc[i] !in r.untouched)
  {
    var (r, acc) := Serve(s, es);
    AcceptedPlusPendingIsCreated(s, es);
    SplitOfFreshAndOld(s.untouched, r.untouched, acc, |s.conns|, |r.conns|);
  }

  /** If the handed-out list and the pending list together hold the old
      pending list, whose entries are below `a` and distinct, plus the
      identities `a` to `c`, then each of those identities is in exactly
      one of them, once. */
  lemma SplitOfFreshAndOld(u0: seq<nat>, u2: seq<nat>, acc: seq<nat>, a: nat, c: nat)
    requires a <= c && Distinct(u0)
    requires forall i | 0 <= i < |u0| :: u0[i] < a
    requires multiset(acc) + multiset(u2) == multiset(u0) + multiset(Range(a, c))
    ensures forall id | a <= id < c :: id in acc || id in u2
    ensures Distinct(acc)
    ensures forall i | 0 <= i < |acc| :: acc[i] !in u2
  {
    var created := Range(a, c);
    var total := multiset(u0) + multiset(created);
    assert forall x :: multiset(acc)[x] + multiset(u2)[x] == total[x] by {
      forall x ensures multiset(acc)[x] + multiset(u2)[x] == total[x] {
        calc {
          multiset(acc)[x] + multiset(u2)[x];
          (multiset(acc) + multiset(u2))[x];
          total[x];
        }
      }
    }
    DistinctCounts(u0);
    RangeCounts(a, c);
    forall x: nat
      ensures multiset(acc)[x] + multiset(u2)[x] <= 1
    {
      if x in created {
        assert x !in u0;
        assert multiset(u0)[x] == 0;
      } else {
        assert multiset(created)[x] == 0;
      }
    }
    forall id | a <= id < c
      ensures id in acc || id in u2
    {
      assert created[id - a] == id;
      assert multiset(created)[id] >= 1;
      if multiset(acc)[id] > 0 {
        assert id in multiset(acc);
      } else {
        assert id in multiset(u2);
      }
    }
    CountsDistinct(acc);
    forall i | 0 <= i < |acc|
      ensures acc[i] !in u2
    {
      assert acc[i] in multiset(acc);
      assert multiset(acc)[acc[i]] + multiset(u2)[acc[i]] <= 1;
    }
  }

  /** The identities `a` to `c` appear once each. */
  lemma RangeCounts(a: nat, c: nat)
    requires a <= c
    ensures forall x :: multiset(Range(a, c))[x] <= 1
    ensures forall x | x in Range(a, c) :: a <= x
  {
    assert Distinct(Range(a, c));
    DistinctCounts(Range(a, c));
  }

  /** A list without repeats holds each value at most once. */
  lemma {:induction false} DistinctCounts(u: seq<nat>)
    requires Distinct(u)
    ensures forall x :: multiset(u)[x] <= 1
    decreases |u|
  {
    if |u| > 0 {
      assert u == [u[0]] + u[1..];
      assert Distinct(u[1..]) by {
        forall a, b | 0 <= a < b < |u[1..]| ensures u[1..][a] != u[1..][b] {
          assert u[1..][a] == u[a + 1] && u[1..][b] == u[b + 1];
        }
      }
      DistinctCounts(u[1..]);
      assert u[0] !in u[1..] by {
        forall k | 0 <= k < |u[1..]| ensures u[1..][k] != u[0] {
          assert u[1..][k] == u[k + 1];
        }
      }
      forall x ensures multiset(u)[x] <= 1 {
        assert multiset(u)[x] == multiset([u[0]])[x] + multiset(u[1..])[x];
      }
    }
  }

  /** A value at two positions is held at least twice. */
  lemma TwoCopies(u: seq<nat>, a: nat, b: nat)
    requires a < b < |u| && u[a] == u[b]
    ensures multiset(u)[u[a]] >= 2
  {
    assert u == u[..b] + u[b..];
    assert u[..b][a] == u[a] && u[b..][0] == u[b];
    assert multiset(u)[u[a]] == multiset(u[..b])[u[a]] + multiset(u[b..])[u[a]];
  }

  /** A list holding each value at most once has no repeats. */
  lemma CountsDistinct(u: seq<nat>)
    requires forall x :: multiset(u)[x] <= 1
    ensures Distinct(u)
  {
    forall a, b | 0 <= a < b < |u| ensures u[a] != u[b] {
      if u[a] == u[b] {
        TwoCopies(u, a, b);
      }
    }
  }

  /** The accounting step for a datagram: the connections it may create,
      `a` to `b`, join the pending list. */
  lemma CreatedJoinPending(u0: seq<nat>, u1: seq<nat>, u2: seq<nat>, acc: seq<nat>, a: nat, b: nat, c: nat)
    requires a <= b <= c
    requires u1 == u0 + Range(a, b)
    requires multiset(acc) + multiset(u2) == multiset(u1) + multiset(Range(b, c))
    ensures multiset(acc) + multiset(u2) == multiset(u0) + multiset(Range(a, c))
  {
    assert Range(a, b) + Range(b, c) == Range(a, c);
  }

  /** The accounting step for an `accept` that returns: the connection `x`
      it hands out leaves the back of the pending list. */
  lemma AcceptedLeavesPending(u0: seq<nat>, u1: seq<nat>, u2: seq<nat>, acc: seq<nat>, x: nat, m: multiset<nat>)
    requires u0 == u1 + [x]
    requires multiset(acc) + multiset(u2) == multiset(u1) + m
    ensures multiset([x] + acc) + multiset(u2) == multiset(u0) + m
  {
    calc {
      multiset([x] + acc) + multiset(u2);
      multiset([x]) + (multiset(acc) + multiset(u2));
      multiset([x]) + (multiset(u1) + m);
      (multiset(u1) + multiset([x])) + m;
      { assert multiset(u0) == multiset(u1) + multiset([x]); }
      multiset(u0) + m;
    }
  }

  /** `accept` right after a new peer's first datagram hands out that
      peer's connection, ahead of older pending ones. */
  lemma AcceptReturnsNewestPeer(s: Server, d: Datagram)
    requires Valid(s) && !s.closed
    requires AddressKey(d.host, d.port) !in s.registry
    requires s.reliable ==> |d.payload| >= HeaderLength
    ensures var r := Receive(s, d);
            && !r.closed
            && Accept(r).0 == Some(|s.conns|)
            && r.conns[|s.conns|].FullAddr() == AddressKey(d.host, d.port)
            && Accept(r).1.untouched == s.untouched
  {
    NewPeerGetsConnection(s, d);
  }

  /** `close`: only the flag changes; connections already handed out stay
      as they are. */
  function Close(s: Server): (r: Server)
    ensures r.closed && IsClosed(r)
    ensures r.(closed := s.closed) == s
    ensures Valid(s) ==> Valid(r)
  {
    s.(closed := true)
  }

  function IsClosed(s: Server): bool {
    s.closed
  }

  /** After `close`, `isClosed` holds, datagrams are ignored and `accept`
      returns `None`. */
  lemma CloseStopsServer(s: Server, d: Datagram)
    requires Valid(s)
    ensures IsClosed(Close(s))
    ensures Valid(Close(s))
    ensures Receive(Close(s), d) == Close(s)
    ensures Accept(Close(s)).0 == None
  {
  }

  /** A user closing a connection handed out by `accept`. */
  function CloseConnection(s: Server, id: nat): (r: Server)
    requires Valid(s) && id < |s.conns|
    ensures Valid(r)
    ensures |r.conns| == |s.conns| && r.conns[id].closed
    ensures r.conns[id].FullAddr() == s.conns[id].FullAddr()
    ensures r.conns[id].(closed := s.conns[id].closed) == s.conns[id]
    ensures r.reliable == s.reliable
    ensures r.registry == s.registry && r.untouched == s.untouched && r.closed == s.closed
    ensures |r.conns| == |s.conns| && forall j | 0 <= j < |s.conns| && j != id :: r.conns[j] == s.conns[j]
  {
    s.(conns := s.conns[id := Connection.Close(s.conns[id])])
  }
}

=== FILE: reassembly.dfy ===
/** The receiving half of the reliable mode (`UdpSocket.recv`): frames
    drained from the inbound queue are placed by sequence number into a
    sparse slot list, the empty slots are reported back to the sender, and a
    complete slot list is concatenated into the delivered message. */
module Reassembly {
  import opened Types
  import opened Frames
  import opened Text
  import opened Chunking

  /** `receivedPackets`: index = sequence number, `None` = not yet received. */
  type Slots = seq<Option<Frame>>

  /** The most empty slots one Report frame names. */
  const GapLimit: nat := 10000

  /** `fillArrayToSize`: append empty slots until the list has `size`
      entries; a `size` at or below the current length changes nothing. */
  function Fill(slots: Slots, size: int): (r: Slots)
    ensures |r| == if size > |slots| then size else |slots|
    ensures r[..|slots|] == slots
    ensures forall j | |slots| <= j < |r| :: r[j] == None
    decreases size - |slots|
  {
    if |slots| < size then Fill(slots + [None], size) else slots
  }

  /** One iteration of the draining loop: grow the list to `seq + 1` (Java
      int addition, so `Integer.MAX_VALUE + 1` wraps negative) and store the
      frame at index `seq`. A negative or maximal sequence number makes
      `List.set` throw. */
  function Place(slots: Slots, f: Frame): (r: Result<Slots>)
    requires |slots| <= MaxInt32
    ensures r.Ok? <==> 0 <= f.seqNum < MaxInt32
    ensures r.Err? ==> r.error == IndexOutOfBounds
    ensures r.Ok? ==> |r.value| == (if f.seqNum < |slots| then |slots| else f.seqNum + 1)
    ensures r.Ok? ==> r.value[f.seqNum] == Some(f)
    ensures r.Ok? ==> forall j | 0 <= j < |r.value| && j != f.seqNum ::
                        r.value[j] == (if j < |slots| then slots[j] else None)
  {
    var filled := Fill(slots, Wrap32(f.seqNum + 1));
    if 0 <= f.seqNum < |filled| then Ok(filled[f.seqNum := Some(f)]) else Err(IndexOutOfBounds)
  }

  /** Places the frames one after another, stopping at the first failure. */
  function PlaceAll(slots: Slots, fs: seq<Frame>): (r: Result<Slots>)
    requires |slots| <= MaxInt32
    ensures r.Ok? ==> |slots| <= |r.value| <= MaxInt32
    decreases |fs|
  {
    if |fs| == 0 then Ok(slots)
    else
      match Place(slots, fs[0])
      case Err(e) => Err(e)
      case Ok(next) => PlaceAll(next, fs[1..])
  }

  predicate EndQueued(queue: seq<Frame>) {
    exists i | 0 <= i < |queue| :: queue[i].ftype == End
  }

  /** Position of the first End frame in the queue. */
  function FirstEnd(queue: seq<Frame>): (k: nat)
    requires EndQueued(queue)
    ensures k < |queue| && queue[k].ftype == End
    ensures forall j | 0 <= j < k :: queue[j].ftype != End
  {
    if queue[0].ftype == End then 0 else 1 + FirstEnd(queue[1..])
  }

  /** The draining loop of `recv`: take frames from the front of the queue
      and place each one, stopping right after the first End frame. The
      rest of the queue is left for later. */
  function Drain(queue: seq<Frame>, slots: Slots): (r: Result<(Slots, seq<Frame>)>)
    requires |slots| <= MaxInt32
    requires EndQueued(queue)
    ensures var k := FirstEnd(queue);
            && (r.Ok? <==> PlaceAll(slots, queue[..k + 1]).Ok?)
            && (r.Ok? ==> r.value == (PlaceAll(slots, queue[..k + 1]).value, queue[k + 1..]))
    decreases |queue|
  {
    var f := queue[0];
    match Place(slots, f)
    case Err(e) => Err(e)
    case Ok(next) =>
      if f.ftype == End then
        assert queue[..1] == [f];
        Ok((next, queue[1..]))
      else
        assert queue[..FirstEnd(queue) + 1][1..] == queue[1..][..FirstEnd(queue[1..]) + 1];
        Drain(queue[1..], next)
  }

  predicate Ascending(xs: seq<nat>) {
    forall a, b | 0 <= a < b < |xs| :: xs[a] < xs[b]
  }

  /** Reference definition: the indices below `n` whose slot is empty, in
      increasing order. */
  function NullIndexesBelow(slots: Slots, n: nat): (r: seq<nat>)
    requires n <= |slots|
    ensures forall k | 0 <= k < |r| :: r[k] < n && slots[r[k]].None?
    ensures forall j | 0 <= j < n && slots[j].None? :: j in r
    ensures Ascending(r)
  {
    if n == 0 then []
    else NullIndexesBelow(slots, n - 1) + (if slots[n - 1].None? then [n - 1] else [])
  }

  function NullIndexes(slots: Slots): seq<nat> {
    NullIndexesBelow(slots, |slots|)
  }

  lemma {:induction false} NullIndexesPrefix(slots: Slots, i: nat, n: nat)
    requires i <= n <= |slots|
    ensures NullIndexesBelow(slots, i) <= NullIndexesBelow(slots, n)
    decreases n - i
  {
    if i < n {
      NullIndexesPrefix(slots, i, n - 1);
    }
  }

  /** The first `limit` empty-slot indices (all of them when fewer). */
  function ReportedGaps(slots: Slots, limit: int): (gaps: seq<nat>)
    ensures gaps <= NullIndexes(slots)
    ensures |gaps| == if limit < 0 then 0 else if limit < |NullIndexes(slots)| then limit else |NullIndexes(slots)|
  {
    var all := NullIndexes(slots);
    if limit < 0 then [] else if limit < |all| then all[..limit] else all
  }

  lemma NoGapsIffFull(slots: Slots)
    ensures NullIndexes(slots) == [] <==> Complete(slots)
  {
    var all := NullIndexes(slots);
    if all != [] {
      assert slots[all[0]].None?;
    }
  }

  lemma {:induction false} JoinedDecimalEmptyIff(xs: seq<nat>)
    ensures Join(DecimalTexts(xs)) == "" <==> |xs| == 0
  {
    if |xs| >= 2 {
      assert |Join(DecimalTexts(xs))| >= |DecimalText(xs[0])| > 0;
    } else if |xs| == 1 {
      assert Join(DecimalTexts(xs)) == DecimalText(xs[0]);
    }
  }

  /** Where the scan stops: at the end of the list, or once `limit`
      indices are collected. Either way it has the reported gaps. */
  lemma ScanStopsAtLimit(slots: Slots, limit: int, i: nat, indexes: seq<nat>)
    requires i <= |slots| && indexes == NullIndexesBelow(slots, i)
    requires |indexes| <= limit || (|indexes| == 0 && i == 0)
    requires !(i < |slots| && |indexes| < limit)
    ensures indexes == ReportedGaps(slots, limit)
  {
    NullIndexesPrefix(slots, i, |slots|);
    if i < |slots| && limit > 0 {
      assert |indexes| == limit;
    }
  }

  /** The gap text is empty exactly when no slot is empty. */
  lemma GapTextEmptyIff(slots: Slots, limit: int)
    requires limit > 0
    ensures Join(DecimalTexts(ReportedGaps(slots, limit))) == "" <==> Complete(slots)
  {
    JoinedDecimalEmptyIff(ReportedGaps(slots, limit));
    NoGapsIffFull(slots);
  }

  /** `findNullEleIndexes`: scan the slots in order and collect the indices
      of empty ones until `limit` are found; return them joined by commas,
      or "" when none was found. */
  method FindNullIndexes(slots: Slots, limit: int) returns (indexes: seq<nat>, text: string)
    ensures indexes == ReportedGaps(slots, limit)
    ensures Ascending(indexes)
    ensures forall k | 0 <= k < |indexes| :: indexes[k] < |slots| && slots[indexes[k]].None?
    ensures text == Join(DecimalTexts(indexes))
    ensures limit > 0 ==> (text == "" <==> Complete(slots))
  {
    var counter := 0;
    var i := 0;
    indexes := [];
    while i < |slots| && counter < limit
      invariant 0 <= i <= |slots|
      invariant indexes == NullIndexesBelow(slots, i)
      invariant counter == |indexes|
      invariant counter <= limit || (counter == 0 && i == 0)
    {
      if slots[i].None? {
        indexes := indexes + [i];
        counter := counter + 1;
      }
      i := i + 1;
    }
    ScanStopsAtLimit(slots, limit, i, indexes);
    if limit > 0 {
      GapTextEmptyIff(slots, limit);
    }
    if counter == 0 {
      text := "";
    } else {
      text := Join(DecimalTexts(indexes));
    }
  }

  /** The Report frame the receiver sends: type 3, the slot count in the
      sequence field, the gap text as ASCII bytes. */
  function ReportFrame(slots: Slots, gaps: seq<nat>): (f: Frame)
    requires |slots| <= MaxInt32
    ensures f.ftype == Report && f.seqNum == |slots|
    ensures BytesText(f.payload) == Join(DecimalTexts(gaps))
  {
    JoinedDecimalIsAscii(gaps);
    AsciiRoundTrip(Join(DecimalTexts(gaps)));
    Frame(Report, |slots|, AsciiBytes(Join(DecimalTexts(gaps))))
  }

  predicate Complete(slots: Slots) {
    forall j | 0 <= j < |slots| :: slots[j].Some?
  }

  /** The payloads of a complete slot list, in index order. */
  function Assemble(slots: Slots): seq<byte>
    requires Complete(slots)
  {
    if |slots| == 0 then [] else Assemble(slots[..|slots| - 1]) + slots[|slots| - 1].value.payload
  }

  datatype Pass =
    | Delivered(message: seq<byte>)   // no gaps: the message `recv` returns
    | Missing(slots: Slots)           // gaps reported: keep receiving into these slots

  datatype PassOutcome = PassOutcome(pass: Pass, report: Frame, rest: seq<Frame>)

  /** One round of the outer `recv` loop once the last queued frame is an
      End frame: drain, compute the gaps, build the Report frame, and either
      assemble the message or keep the slots for the repair frames. */
  method ReceivePass(queue: seq<Frame>, slots: Slots) returns (r: Result<PassOutcome>)
    requires |slots| <= MaxInt32
    requires |queue| > 0 && queue[|queue| - 1].ftype == End
    ensures r.Ok? <==> Drain(queue, slots).Ok?
    ensures r.Ok? ==>
              var (placed, rest) := Drain(queue, slots).value;
              && r.value.rest == rest
              && r.value.report == ReportFrame(placed, ReportedGaps(placed, GapLimit))
              && (r.value.pass.Delivered? <==> Complete(placed))
              && (r.value.pass.Delivered? ==> Complete(placed) && r.value.pass.message == Assemble(placed))
              && (r.value.pass.Missing? ==> r.value.pass.slots == placed)
  {
    var drained := Drain(queue, slots);
    if drained.Err? {
      return Err(drained.error);
    }
    var (placed, rest) := drained.value;
    var indexes, text := FindNullIndexes(placed, GapLimit);
    var report := ReportFrame(placed, indexes);
    if text == "" {
      r := Ok(PassOutcome(Delivered(Assemble(placed)), report, rest));
    } else {
      r := Ok(PassOutcome(Missing(placed), report, rest));
    }
  }

  /** A frame that carries the same sequence number and payload (its type
      may have been re-tagged). */
  predicate Carries(a: Frame, b: Frame) {
    a.seqNum == b.seqNum && a.payload == b.payload
  }

  predicate Numbered(frames: seq<Frame>) {
    forall i | 0 <= i < |frames| :: frames[i].seqNum == i
  }

  /** Every filled slot holds (a re-tagging of) the frame of that index. */
  predicate SlotsAgree(slots: Slots, frames: seq<Frame>) {
    && |slots| <= |frames|
    && forall j | 0 <= j < |slots| && slots[j].Some? :: Carries(slots[j].value, frames[j])
  }

  /** Every frame of the list is (a re-tagging of) one of `frames`. */
  predicate FromFrames(arrivals: seq<Frame>, frames: seq<Frame>) {
    forall a | a in arrivals :: 0 <= a.seqNum < |frames| && Carries(a, frames[a.seqNum])
  }

  predicate Arrived(arrivals: seq<Frame>, i: int) {
    exists a | a in arrivals :: a.seqNum == i
  }

  /** Placing frames of a message, in any order and with repeats, keeps the
      slots consistent with the message, keeps filled slots filled, and
      fills the slot of every placed frame. */
  lemma {:induction false} PlaceAllAgrees(frames: seq<Frame>, slots: Slots, arrivals: seq<Frame>)
    requires Numbered(frames) && |frames| <= MaxInt32
    requires SlotsAgree(slots, frames)
    requires FromFrames(arrivals, frames)
    ensures PlaceAll(slots, arrivals).Ok?
    ensures SlotsAgree(PlaceAll(slots, arrivals).value, frames)
    ensures forall j | 0 <= j < |slots| && slots[j].Some? :: PlaceAll(slots, arrivals).value[j].Some?
    ensures forall a | a in arrivals ::
              a.seqNum < |PlaceAll(slots, arrivals).value| && PlaceAll(slots, arrivals).value[a.seqNum].Some?
    decreases |arrivals|
  {
    if |arrivals| > 0 {
      var a := arrivals[0];
      assert a in arrivals;
      var next := Place(slots, a).value;
      assert SlotsAgree(next, frames);
      assert FromFrames(arrivals[1..], frames) by {
        forall b | b in arrivals[1..] ensures 0 <= b.seqNum < |frames| && Carries(b, frames[b.seqNum]) {
          assert b in arrivals;
        }
      }
      PlaceAllAgrees(frames, next, arrivals[1..]);
      forall b | b in arrivals
        ensures b.seqNum < |PlaceAll(slots, arrivals).value| && PlaceAll(slots, arrivals).value[b.seqNum].Some?
      {
        if b != a {
          assert b in arrivals[1..];
        }
      }
    }
  }

  lemma {:induction false} AssembleAgrees(slots: Slots, frames: seq<Frame>)
    requires SlotsAgree(slots, frames) && Complete(slots)
    ensures Assemble(slots) == ConcatPayloads(frames[..|slots|])
  {
    var n := |slots|;
    if n > 0 {
      AssembleAgrees(slots[..n - 1], frames);
      assert frames[..n][..n - 1] == frames[..n - 1];
    }
  }

  /** A slot list consistent with the framing of `msg` that is complete and
      as long as the framing reports no gap and reassembles to `msg`. */
  lemma FullSlotsDeliverMessage(msg: seq<byte>, frames: seq<Frame>, slots: Slots)
    requires IsChunking(msg, frames)
    requires SlotsAgree(slots, frames) && |slots| == |frames| && Complete(slots)
    ensures NullIndexes(slots) == []
    ensures Assemble(slots) == msg
  {
    NoGapsIffFull(slots);
    AssembleAgrees(slots, frames);
    assert frames[..|slots|] == frames;
    ChunksReassemble(msg, frames);
  }

  /** End to end: if every frame of a framed message is placed, in any order
      and with any repeats and re-tags, into an empty slot list, no gap is
      left and the slots reassemble to the original message. */
  lemma DeliveryReproducesMessage(msg: seq<byte>, frames: seq<Frame>, arrivals: seq<Frame>)
    requires |msg| <= MaxArrayLength
    requires IsChunking(msg, frames)
    requires FromFrames(arrivals, frames)
    requires forall i | 0 <= i < |frames| :: Arrived(arrivals, i)
    ensures PlaceAll([], arrivals).Ok?
    ensures Complete(PlaceAll([], arrivals).value)
    ensures NullIndexes(PlaceAll([], arrivals).value) == []
    ensures Assemble(PlaceAll([], arrivals).value) == msg
  {
    PlaceAllAgrees(frames, [], arrivals);
    var slots := PlaceAll([], arrivals).value;
    assert Arrived(arrivals, |frames| - 1);
    forall j | 0 <= j < |slots| ensures slots[j].Some? {
      assert Arrived(arrivals, j);
    }
    FullSlotsDeliverMessage(msg, frames, slots);
  }
}

=== FILE: repair.dfy ===
/** The sending half of the reliable mode after the initial transmission
    (`UdpSocket.send`): find the Report frame in the inbound queue, read the
    missing indices out of its payload, and choose and re-tag the retained
    frames to send again. */
module Repair {
  import opened Types
  import opened Frames
  import opened Text
  import opened Chunking
  import opened Reassembly

  /** The Report lookup once the wait is over: the back of the queue is
      checked first, then the front (the receiver may have drained the
      frames before it). The Report is removed from the end it was found at;
      `None` means the sender keeps waiting. */
  function TakeReport(queue: seq<Frame>): (r: Option<(Frame, seq<Frame>)>)
    ensures r.Some? <==> |queue| > 0 && (queue[|queue| - 1].ftype == Report || queue[0].ftype == Report)
    ensures r.Some? ==> r.value.0.ftype == Report && |r.value.1| == |queue| - 1
    ensures r.Some? && queue[|queue| - 1].ftype == Report ==> queue == r.value.1 + [r.value.0]
    ensures r.Some? && queue[|queue| - 1].ftype != Report ==> queue == [r.value.0] + r.value.1
  {
    if |queue| > 0 && queue[|queue| - 1].ftype == Report then Some((queue[|queue| - 1], queue[..|queue| - 1]))
    else if |queue| > 0 && queue[0].ftype == Report then Some((queue[0], queue[1..]))
    else None
  }

  /** `Integer.parseInt` of every piece, failing if any piece fails. */
  function ParseAll(pieces: seq<string>): (r: Option<seq<int>>)
    ensures r.Some? <==> forall k | 0 <= k < |pieces| :: ParseInt(pieces[k]).Some?
    ensures r.Some? ==> |r.value| == |pieces|
    ensures r.Some? ==> forall k | 0 <= k < |pieces| :: ParseInt(pieces[k]) == Some(r.value[k])
  {
    if forall k | 0 <= k < |pieces| :: ParseInt(pieces[k]).Some? then
      Some(seq(|pieces|, k requires 0 <= k < |pieces| => ParseInt(pieces[k]).value as int))
    else None
  }

  /** The missing-index list read from the trimmed Report text: split on
      commas; with no piece, indexing the first throws; with one piece the
      whole text is parsed (so "5," fails); otherwise every piece is. */
  function ParseReport(response: string): (r: Result<seq<int>>)
    ensures r.Ok? ==> |r.value| >= 1
    ensures r.Ok? ==> |JavaSplit(response)| == |r.value|
    ensures r.Ok? && |r.value| == 1 ==> ParseInt(response) == Some(r.value[0])
    ensures r.Ok? && |r.value| > 1 ==> forall k | 0 <= k < |r.value| :: ParseInt(JavaSplit(response)[k]) == Some(r.value[k])
    ensures |JavaSplit(response)| == 0 ==> r == Err(IndexOutOfBounds)
    ensures |JavaSplit(response)| == 1 ==> (r.Ok? <==> ParseInt(response).Some?)
    ensures |JavaSplit(response)| > 1 ==>
              (r.Ok? <==> forall k | 0 <= k < |JavaSplit(response)| :: ParseInt(JavaSplit(response)[k]).Some?)
    ensures |JavaSplit(response)| >= 1 && r.Err? ==> r.error == NumberFormat
  {
    var pieces := JavaSplit(response);
    if |pieces| == 0 then Err(IndexOutOfBounds)
    else if |pieces| == 1 then
      match ParseInt(response)
      case None => Err(NumberFormat)
      case Some(v) => Ok([v as int])
    else
      match ParseAll(pieces)
      case None => Err(NumberFormat)
      case Some(vs) => Ok(vs)
  }

  /** The indices below `n`, in list order. */
  function InRangeOnly(ids: seq<int>, n: nat): (r: seq<int>)
    ensures |r| <= |ids|
    ensures InRange(r, n)
    ensures forall x :: x in r <==> x in ids && 0 <= x < n
    ensures InRange(ids, n) ==> r == ids
    ensures forall x :: multiset(r)[x] == if 0 <= x < n then multiset(ids)[x] else 0
  {
    if |ids| == 0 then []
    else
      assert ids == [ids[0]] + ids[1..];
      (if 0 <= ids[0] < n then [ids[0]] else []) + InRangeOnly(ids[1..], n)
  }

  /** The filter keeps order: filtering a concatenation concatenates the
      filtered parts, so `InRangeOnly(ids, n)` is `ids` with the
      out-of-range entries struck out where they stand. */
  lemma {:induction false} InRangeOnlyAppend(a: seq<int>, b: seq<int>, n: nat)
    ensures InRangeOnly(a + b, n) == InRangeOnly(a, n) + InRangeOnly(b, n)
    decreases |a|
  {
    if |a| == 0 {
      assert a + b == b;
    } else {
      assert (a + b)[1..] == a[1..] + b;
      InRangeOnlyAppend(a[1..], b, n);
    }
  }

  /** The frames at the in-range indices, in list order; out-of-range
      indices are skipped. */
  function Pick(frames: seq<Frame>, ids: seq<int>): (r: seq<Frame>)
    ensures var kept := InRangeOnly(ids, |frames|);
            && |r| == |kept|
            && forall k | 0 <= k < |r| :: r[k] == frames[kept[k]]
  {
    if |ids| == 0 then []
    else (if 0 <= ids[0] < |frames| then [frames[ids[0]]] else []) + Pick(frames, ids[1..])
  }

  predicate InRange(ids: seq<int>, n: nat) {
    forall k | 0 <= k < |ids| :: 0 <= ids[k] < n
  }

  lemma {:induction false} PickInRange(frames: seq<Frame>, ids: seq<int>)
    requires InRange(ids, |frames|)
    ensures |Pick(frames, ids)| == |ids|
    ensures forall k | 0 <= k < |ids| :: Pick(frames, ids)[k] == frames[ids[k]]
  {
    if |ids| > 0 {
      PickInRange(frames, ids[1..]);
    }
  }

  /** What a repair round sends: the frames in transmission order, the
      retained list with its re-tags, and the new `lastFrame` the timer
      re-sends. */
  datatype Resend = Resend(frames: seq<Frame>, retained: seq<Frame>, last: Frame)

  /** The repair round of `send` for a parsed index list. One index: that
      frame is re-tagged End and sent. Several: the first is re-tagged
      Start and sent, the in-range interior ones are sent as they are, and
      the last is re-tagged End and sent. Re-tags are written into the
      retained list. A first or last index out of range throws. */
  function ApplyRepair(sent: seq<Frame>, idx: seq<int>): (r: Result<Resend>)
    requires |idx| >= 1
    ensures r.Ok? <==> 0 <= idx[0] < |sent| && 0 <= idx[|idx| - 1] < |sent|
    ensures r.Err? ==> r.error == IndexOutOfBounds
    ensures r.Ok? ==>
              var i0, il := idx[0], idx[|idx| - 1];
              && |r.value.retained| == |sent|
              && r.value.last == sent[il].(ftype := End)
              && |r.value.frames| >= 1
              && r.value.frames[|r.value.frames| - 1] == r.value.last
              && r.value.retained[il] == r.value.last
              && (|idx| > 1 && i0 != il ==> r.value.retained[i0] == sent[i0].(ftype := Start))
              && (forall j | 0 <= j < |sent| && j != i0 && j != il :: r.value.retained[j] == sent[j])
    ensures r.Ok? && |idx| == 1 ==> r.value.frames == [sent[idx[0]].(ftype := End)]
    ensures r.Ok? && |idx| > 1 ==>
              var first := sent[idx[0]].(ftype := Start);
              r.value.frames == [first] + Pick(sent[idx[0] := first], idx[1..|idx| - 1]) + [r.value.last]
  {
    var i0 := idx[0];
    if !(0 <= i0 < |sent|) then Err(IndexOutOfBounds)
    else if |idx| == 1 then
      var f := sent[i0].(ftype := End);
      Ok(Resend([f], sent[i0 := f], f))
    else
      var first := sent[i0].(ftype := Start);
      var tagged := sent[i0 := first];
      var middle := Pick(tagged, idx[1..|idx| - 1]);
      var il := idx[|idx| - 1];
      if !(0 <= il < |sent|) then Err(IndexOutOfBounds)
      else
        var last := tagged[il].(ftype := End);
        Ok(Resend([first] + middle + [last], tagged[il := last], last))
  }

  /** The repair round as `send` runs it on the trimmed Report text, with
      the exceptions in source order. With one piece the whole text is
      parsed and looked up. Otherwise a missing first piece throws
      IndexOutOfBounds; the first piece is parsed and looked up; then the
      interior and last pieces are parsed and the last is looked up, which
      raises NumberFormat before IndexOutOfBounds, as parsing the whole
      list and then looking up the last index does. */
  function RunRepair(sent: seq<Frame>, response: string): (r: Result<Resend>)
    ensures |JavaSplit(response)| == 0 ==> r == Err(IndexOutOfBounds)
    ensures |JavaSplit(response)| >= 1 && ParseInt(JavaSplit(response)[0]).None? ==> r == Err(NumberFormat)
    ensures (&& |JavaSplit(response)| >= 2
             && ParseInt(JavaSplit(response)[0]).Some?
             && !(0 <= ParseInt(JavaSplit(response)[0]).value < |sent|))
            ==> r == Err(IndexOutOfBounds)
  {
    var pieces := JavaSplit(response);
    var n := |pieces|;
    if n == 1 then
      match ParseInt(response)
      case None => Err(NumberFormat)
      case Some(i) => ApplyRepair(sent, [i as int])
    else if n == 0 then Err(IndexOutOfBounds)
    else
      match ParseInt(pieces[0])
      case None => Err(NumberFormat)
      case Some(i0) =>
        if !(0 <= i0 < |sent|) then Err(IndexOutOfBounds)
        else
          match ParseReport(response)
          case Err(e) => Err(e)
          case Ok(idx) => ApplyRepair(sent, idx)
  }

  /** Running the round in source order agrees with parsing the whole list
      first and then repairing: both succeed together, with the same
      result, and when the text parses the only failure is a lookup out of
      range. */
  lemma RunRepairAgrees(sent: seq<Frame>, response: string)
    ensures var p := ParseReport(response);
            var r := RunRepair(sent, response);
            && (r.Ok? <==> p.Ok? && ApplyRepair(sent, p.value).Ok?)
            && (r.Ok? ==> r == ApplyRepair(sent, p.value))
            && (p.Ok? && r.Err? ==> r.error == IndexOutOfBounds)
  {
  }

  /** The sender's reaction to a Report frame: an empty payload ends the
      transfer; otherwise the payload is decoded, trimmed, and a repair
      round is run on it. */
  datatype Reply = Acknowledged | Repaired(resend: Resend)

  function HandleReport(sent: seq<Frame>, report: Frame): (r: Result<Reply>)
    ensures |report.payload| == 0 <==> r == Ok(Acknowledged)
    ensures |report.payload| > 0 ==>
              var idx := ParseReport(Trim(BytesText(report.payload)));
              && (r.Ok? <==> idx.Ok? && ApplyRepair(sent, idx.value).Ok?)
              && (r.Ok? ==> r == Ok(Repaired(ApplyRepair(sent, idx.value).value)))
              && (idx.Ok? && r.Err? ==> r.error == IndexOutOfBounds)
  {
    if |report.payload| == 0 then Ok(Acknowledged)
    else
      RunRepairAgrees(sent, Trim(BytesText(report.payload)));
      match RunRepair(sent, Trim(BytesText(report.payload)))
      case Err(e) => Err(e)
      case Ok(resend) => Ok(Repaired(resend))
  }

  /** Parsing the decimal texts of in-range indices gives the indices. */
  lemma DecimalPiecesParse(gaps: seq<nat>)
    requires forall k | 0 <= k < |gaps| :: gaps[k] <= MaxInt32
    ensures ParseAll(DecimalTexts(gaps)).Some?
    ensures ParseAll(DecimalTexts(gaps)).value == gaps
  {
    var ts := DecimalTexts(gaps);
    forall k | 0 <= k < |gaps| ensures ParseInt(ts[k]) == Some(gaps[k]) {
      ParseIntOfDecimal(gaps[k]);
    }
    var r := ParseAll(ts).value;
    forall k | 0 <= k < |gaps| ensures r[k] == gaps[k] {
      assert ParseInt(ts[k]) == Some(r[k]);
    }
  }

  /** The joined gap text is unchanged by trimming. */
  lemma TrimJoinedGaps(gaps: seq<nat>)
    requires |gaps| >= 1
    ensures Trim(Join(DecimalTexts(gaps))) == Join(DecimalTexts(gaps))
  {
    JoinedDecimalEmptyIff(gaps);
    JoinedDecimalIsAscii(gaps);
    TrimNoWhite(Join(DecimalTexts(gaps)));
  }

  /** The gap text round-trips: what `findNullEleIndexes` joins, the sender
      trims, splits and parses back into the same index list. */
  lemma GapTextRoundTrip(gaps: seq<nat>)
    requires |gaps| >= 1
    requires forall k | 0 <= k < |gaps| :: gaps[k] <= MaxInt32
    ensures ParseReport(Trim(Join(DecimalTexts(gaps)))).Ok?
    ensures ParseReport(Trim(Join(DecimalTexts(gaps)))).value == gaps
  {
    if |gaps| == 1 {
      OneGapParses(gaps);
    } else {
      SeveralGapsParse(gaps);
    }
  }

  lemma OneGapParses(gaps: seq<nat>)
    requires |gaps| == 1 && gaps[0] <= MaxInt32
    ensures ParseReport(Trim(Join(DecimalTexts(gaps)))) == Ok(gaps)
  {
    var text := Join(DecimalTexts(gaps));
    TrimJoinedGaps(gaps);
    JavaSplitJoinDecimal(gaps);
    assert text == DecimalText(gaps[0]);
    ParseIntOfDecimal(gaps[0]);
    assert [gaps[0]] == gaps;
  }

  lemma SeveralGapsParse(gaps: seq<nat>)
    requires |gaps| > 1
    requires forall k | 0 <= k < |gaps| :: gaps[k] <= MaxInt32
    ensures ParseReport(Trim(Join(DecimalTexts(gaps)))) == Ok(gaps)
  {
    TrimJoinedGaps(gaps);
    JavaSplitJoinDecimal(gaps);
    DecimalPiecesParse(gaps);
  }

  /** A Report whose text is a joined list of indices makes the sender
      repair exactly those indices. */
  lemma ReportTextDrivesRepair(sent: seq<Frame>, report: Frame, gaps: seq<nat>)
    requires BytesText(report.payload) == Join(DecimalTexts(gaps))
    requires forall k | 0 <= k < |gaps| :: gaps[k] <= MaxInt32
    ensures var r := HandleReport(sent, report);
            && (|gaps| == 0 <==> r == Ok(Acknowledged))
            && (|gaps| > 0 ==>
                  && (r.Ok? <==> ApplyRepair(sent, gaps).Ok?)
                  && (r.Ok? ==> r == Ok(Repaired(ApplyRepair(sent, gaps).value)))
                  && (r.Err? ==> r.error == IndexOutOfBounds))
  {
    JoinedDecimalEmptyIff(gaps);
    assert |report.payload| == |Join(DecimalTexts(gaps))|;
    if |gaps| > 0 {
      GapTextRoundTrip(gaps);
    }
  }

  /** What the receiver reports is what the sender repairs: an empty gap
      list acknowledges the transfer, and otherwise the repair round is run
      on exactly the reported indices. */
  lemma ReportDrivesRepair(sent: seq<Frame>, slots: Slots)
    requires |slots| <= MaxInt32
    ensures var gaps := ReportedGaps(slots, GapLimit);
            var r := HandleReport(sent, ReportFrame(slots, gaps));
            && (|gaps| == 0 <==> r == Ok(Acknowledged))
            && (|gaps| > 0 ==>
                  && (r.Ok? <==> ApplyRepair(sent, gaps).Ok?)
                  && (r.Ok? ==> r == Ok(Repaired(ApplyRepair(sent, gaps).value)))
                  && (r.Err? ==> r.error == IndexOutOfBounds))
  {
    var gaps := ReportedGaps(slots, GapLimit);
    assert forall k | 0 <= k < |gaps| :: gaps[k] < |slots|;
    ReportTextDrivesRepair(sent, ReportFrame(slots, gaps), gaps);
  }

  /** The retained list still carries the original frames: re-tagging only
      changes types. */
  predicate SameCargo(retained: seq<Frame>, frames: seq<Frame>) {
    |retained| == |frames| && forall i | 0 <= i < |frames| :: Carries(retained[i], frames[i])
  }

  /** With every listed index in range, the round re-sends one frame per
      listed index, in list order, each carrying that retained frame's
      sequence number and payload; the first is tagged Start and the last
      End (a single frame is tagged End); the retained frames keep their
      cargo. */
  lemma RepairResendsListed(sent: seq<Frame>, idx: seq<int>)
    requires |idx| >= 1 && InRange(idx, |sent|)
    ensures ApplyRepair(sent, idx).Ok?
    ensures var rs := ApplyRepair(sent, idx).value;
            && |rs.frames| == |idx|
            && (forall k | 0 <= k < |idx| :: Carries(rs.frames[k], sent[idx[k]]))
            && rs.frames[|idx| - 1].ftype == End
            && (|idx| > 1 ==> rs.frames[0].ftype == Start)
            && SameCargo(rs.retained, sent)
  {
    if |idx| > 1 {
      var first := sent[idx[0]].(ftype := Start);
      var tagged := sent[idx[0] := first];
      var interior := idx[1..|idx| - 1];
      assert InRange(interior, |tagged|) by {
        forall k | 0 <= k < |interior| ensures 0 <= interior[k] < |tagged| {
          assert interior[k] == idx[k + 1];
        }
      }
      PickInRange(tagged, interior);
      var rs := ApplyRepair(sent, idx).value;
      forall k | 0 <= k < |idx| ensures Carries(rs.frames[k], sent[idx[k]]) {
        if 0 < k < |idx| - 1 {
          assert rs.frames[k] == Pick(tagged, interior)[k - 1];
          assert interior[k - 1] == idx[k];
        }
      }
    }
  }

  /** The frames of a repair round over in-range indices all come from the
      original framing, and every listed index is among them. */
  lemma ResentCover(frames: seq<Frame>, retained: seq<Frame>, gaps: seq<int>)
    requires SameCargo(retained, frames) && Numbered(frames)
    requires |gaps| >= 1 && InRange(gaps, |frames|)
    ensures ApplyRepair(retained, gaps).Ok?
    ensures var rs := ApplyRepair(retained, gaps).value;
            && FromFrames(rs.frames, frames)
            && (forall k | 0 <= k < |gaps| :: Arrived(rs.frames, gaps[k]))
            && SameCargo(rs.retained, frames)
  {
    RepairResendsListed(retained, gaps);
    var rs := ApplyRepair(retained, gaps).value;
    forall a | a in rs.frames ensures 0 <= a.seqNum < |frames| && Carries(a, frames[a.seqNum]) {
      var k :| 0 <= k < |rs.frames| && rs.frames[k] == a;
      assert Carries(a, retained[gaps[k]]);
    }
    forall k | 0 <= k < |gaps| ensures Arrived(rs.frames, gaps[k]) {
      assert rs.frames[k] in rs.frames;
    }
    forall i | 0 <= i < |frames| ensures Carries(rs.retained[i], frames[i]) {
      assert Carries(rs.retained[i], retained[i]);
    }
  }

  /** The repair loop converges: if the receiver's slots agree with the
      framing of `msg`, are as long as the framing, and every gap is
      reported, then placing the frames of one repair round fills every
      gap, and the slots reassemble to `msg`. */
  lemma RepairFillsGaps(msg: seq<byte>, frames: seq<Frame>, retained: seq<Frame>, slots: Slots)
    requires |msg| <= MaxArrayLength
    requires IsChunking(msg, frames)
    requires SameCargo(retained, frames)
    requires SlotsAgree(slots, frames) && |slots| == |frames|
    requires 0 < |NullIndexes(slots)| <= GapLimit
    ensures ApplyRepair(retained, NullIndexes(slots)).Ok?
    ensures var rs := ApplyRepair(retained, NullIndexes(slots)).value;
            && SameCargo(rs.retained, frames)
            && PlaceAll(slots, rs.frames).Ok?
            && Complete(PlaceAll(slots, rs.frames).value)
            && Assemble(PlaceAll(slots, rs.frames).value) == msg
  {
    var gaps := NullIndexes(slots);
    assert Numbered(frames);
    ResentCover(frames, retained, gaps);
    var rs := ApplyRepair(retained, gaps).value;
    PlaceAllAgrees(frames, slots, rs.frames);
    var filled := PlaceAll(slots, rs.frames).value;
    forall j | 0 <= j < |filled| ensures filled[j].Some? {
      if slots[j].None? {
        assert j in gaps;
        var k :| 0 <= k < |gaps| && gaps[k] == j;
        assert Arrived(rs.frames, gaps[k]);
      }
    }
    FullSlotsDeliverMessage(msg, frames, filled);
  }
}

=== FILE: text.dfy ===
/** The text handling the Report frame relies on: `Integer.toString` of
    an index, `String.join(",")`, `String.getBytes`/`new String(bytes)` on
    ASCII text, `String.trim`, `String.split(",")` and `Integer.parseInt`. */
module Text {
  import opened Types

  predicate IsDigit(c: char) {
    '0' <= c <= '9'
  }

  predicate AllDigits(s: string) {
    forall i | 0 <= i < |s| :: IsDigit(s[i])
  }

  function DigitChar(d: nat): (c: char)
    requires d < 10
    ensures IsDigit(c)
  {
    ('0' as int + d) as char
  }

  function DigitValue(c: char): (d: nat)
    requires IsDigit(c)
    ensures d < 10
    ensures DigitChar(d) == c
  {
    c as int - '0' as int
  }

  /** `Integer.toString(n)` for a non-negative `n`: shortest decimal text. */
  function DecimalText(n: nat): (s: string)
    ensures |s| > 0 && AllDigits(s)
    ensures |s| > 1 ==> s[0] != '0'
  {
    if n < 10 then [DigitChar(n)] else DecimalText(n / 10) + [DigitChar(n % 10)]
  }

  /** The value of a string of decimal digits (most significant first). */
  function DigitsValue(s: string): nat
    requires AllDigits(s)
  {
    if |s| == 0 then 0 else DigitsValue(s[..|s| - 1]) * 10 + DigitValue(s[|s| - 1])
  }

  lemma {:induction false} DecimalTextRoundTrip(n: nat)
    ensures DigitsValue(DecimalText(n)) == n
  {
    if n >= 10 {
      var s := DecimalText(n);
      assert s[..|s| - 1] == DecimalText(n / 10);
      DecimalTextRoundTrip(n / 10);
    }
  }

  lemma DecimalTextInjective(m: nat, n: nat)
    requires DecimalText(m) == DecimalText(n)
    ensures m == n
  {
    DecimalTextRoundTrip(m);
    DecimalTextRoundTrip(n);
  }

  /** `Integer.parseInt(s)` (radix 10): an optional leading '-' or '+',
      then at least one digit, and the value must fit in an `int`;
      anything else is a NumberFormatException, here `None`. */
  function ParseInt(s: string): (r: Option<i32>)
    ensures r.Some? ==> |s| > 0 && (IsDigit(s[0]) || s[0] == '-' || s[0] == '+')
    ensures r.Some? ==> AllDigits(s[1..]) && (s[0] != '-' ==> r.value >= 0)
    ensures r.Some? && IsDigit(s[0]) ==> AllDigits(s) && r.value == DigitsValue(s)
    ensures r.Some? && s[0] == '-' ==> |s| > 1 && r.value == 0 - DigitsValue(s[1..])
    ensures r.Some? && s[0] == '+' ==> |s| > 1 && r.value == DigitsValue(s[1..])
    ensures |s| > 0 && AllDigits(s) && DigitsValue(s) <= MaxInt32 ==> r == Some(DigitsValue(s))
    ensures |s| > 1 && s[0] == '-' && AllDigits(s[1..]) && DigitsValue(s[1..]) <= MaxInt32 + 1 ==>
              r == Some(0 - DigitsValue(s[1..]))
    ensures |s| > 1 && s[0] == '+' && AllDigits(s[1..]) && DigitsValue(s[1..]) <= MaxInt32 ==>
              r == Some(DigitsValue(s[1..]))
  {
    if |s| == 0 then None
    else
      var digits := if s[0] == '-' || s[0] == '+' then s[1..] else s;
      if |digits| == 0 || !AllDigits(digits) then None
      else
        var v: int := if s[0] == '-' then 0 - DigitsValue(digits) as int else DigitsValue(digits);
        if MinInt32 <= v <= MaxInt32 then Some(v) else None
  }

  lemma ParseIntOfDecimal(n: nat)
    requires n <= MaxInt32
    ensures ParseInt(DecimalText(n)) == Some(n)
  {
    DecimalTextRoundTrip(n);
  }

  /** `String.join(",", parts)`. */
  function Join(parts: seq<string>): (s: string)
    ensures |parts| == 0 ==> s == ""
    ensures |parts| == 1 ==> s == parts[0]
  {
    if |parts| == 0 then ""
    else if |parts| == 1 then parts[0]
    else parts[0] + "," + Join(parts[1..])
  }

  /** The decimal texts of a list of indices, in order. */
  function DecimalTexts(xs: seq<nat>): (ts: seq<string>)
    ensures |ts| == |xs|
    ensures forall k | 0 <= k < |xs| :: ts[k] == DecimalText(xs[k])
  {
    seq(|xs|, k requires 0 <= k < |xs| => DecimalText(xs[k]))
  }

  /** Cuts a string at every comma; a string without commas is one piece. */
  function SplitOnComma(s: string): (parts: seq<string>)
    ensures |parts| >= 1
    ensures forall k | 0 <= k < |parts| :: ',' !in parts[k]
  {
    if |s| == 0 then [""]
    else
      var rest := SplitOnComma(s[1..]);
      if s[0] == ',' then [""] + rest else [[s[0]] + rest[0]] + rest[1..]
  }

  function DropTrailingEmpty(parts: seq<string>): (r: seq<string>)
    ensures r <= parts
    ensures |r| > 0 ==> r[|r| - 1] != ""
    ensures forall k | |r| <= k < |parts| :: parts[k] == ""
  {
    if |parts| > 0 && parts[|parts| - 1] == "" then DropTrailingEmpty(parts[..|parts| - 1]) else parts
  }

  /** `s.split(",")`: a string without a comma is returned whole (even when
      empty); otherwise the pieces, with trailing empty pieces removed. */
  function JavaSplit(s: string): (parts: seq<string>)
    ensures ',' !in s ==> parts == [s]
    ensures ',' in s ==> parts <= SplitOnComma(s)
    ensures ',' in s ==> forall k | |parts| <= k < |SplitOnComma(s)| :: SplitOnComma(s)[k] == ""
    ensures ',' in s && |parts| > 0 ==> parts[|parts| - 1] != ""
  {
    if ',' !in s then [s] else DropTrailingEmpty(SplitOnComma(s))
  }

  lemma {:induction false} SplitOfNoComma(a: string)
    requires ',' !in a
    ensures SplitOnComma(a) == [a]
  {
    if |a| > 0 {
      SplitOfNoComma(a[1..]);
      assert [a[0]] + a[1..] == a;
    }
  }

  lemma {:induction false} SplitAfterPiece(a: string, b: string)
    requires ',' !in a
    ensures SplitOnComma(a + "," + b) == [a] + SplitOnComma(b)
  {
    if |a| == 0 {
      assert a + "," + b == [','] + b;
      assert ([','] + b)[1..] == b;
    } else {
      var s := a + "," + b;
      assert s[0] == a[0];
      assert s[1..] == a[1..] + "," + b;
      SplitAfterPiece(a[1..], b);
      assert [a[0]] + a[1..] == a;
    }
  }

  predicate NoCommas(parts: seq<string>) {
    forall k | 0 <= k < |parts| :: ',' !in parts[k]
  }

  lemma {:induction false} SplitJoin(parts: seq<string>)
    requires |parts| >= 1 && NoCommas(parts)
    ensures SplitOnComma(Join(parts)) == parts
  {
    if |parts| == 1 {
      SplitOfNoComma(parts[0]);
    } else {
      SplitAfterPiece(parts[0], Join(parts[1..]));
      SplitJoin(parts[1..]);
    }
  }

  lemma {:induction false} JoinHasCommaIffSeveral(parts: seq<string>)
    requires NoCommas(parts)
    ensures ',' in Join(parts) <==> |parts| >= 2
  {
    if |parts| >= 2 {
      assert Join(parts)[|parts[0]|] == ',';
    }
  }

  /** Splitting the joined decimal texts gives back those texts. */
  lemma JavaSplitJoinDecimal(xs: seq<nat>)
    requires |xs| >= 1
    ensures JavaSplit(Join(DecimalTexts(xs))) == DecimalTexts(xs)
  {
    var ts := DecimalTexts(xs);
    assert NoCommas(ts) by {
      forall k | 0 <= k < |ts| ensures ',' !in ts[k] {
        assert AllDigits(ts[k]);
      }
    }
    JoinHasCommaIffSeveral(ts);
    if |ts| >= 2 {
      SplitJoin(ts);
      assert ts[|ts| - 1] != "";
    }
  }

  predicate IsWhite(c: char) {
    c as int <= 0x20
  }

  function TrimStart(s: string): (r: string)
    ensures |r| > 0 ==> !IsWhite(r[0])
    ensures |r| <= |s| && r == s[|s| - |r|..]
    ensures forall i | 0 <= i < |s| - |r| :: IsWhite(s[i])
  {
    if |s| > 0 && IsWhite(s[0]) then TrimStart(s[1..]) else s
  }

  function TrimEnd(s: string): (r: string)
    ensures |r| > 0 ==> !IsWhite(r[|r| - 1])
    ensures |r| <= |s| && r == s[..|r|]
    ensures forall i | |r| <= i < |s| :: IsWhite(s[i])
  {
    if |s| > 0 && IsWhite(s[|s| - 1]) then TrimEnd(s[..|s| - 1]) else s
  }

  /** `String.trim`: drops leading and trailing characters up to U+0020. */
  function Trim(s: string): (r: string)
    ensures |r| > 0 ==> !IsWhite(r[0]) && !IsWhite(r[|r| - 1])
    ensures |r| <= |s|
  {
    TrimEnd(TrimStart(s))
  }

  /** The trimmed text is the stretch of `s` that starts after its leading
      blanks and is followed only by blanks; an all-blank text trims to "". */
  lemma TrimIsStretch(s: string)
    ensures var r := Trim(s);
            var a := |s| - |TrimStart(s)|;
            && a + |r| <= |s|
            && (forall i | 0 <= i < |r| :: r[i] == s[a + i])
            && (forall i | 0 <= i < a :: IsWhite(s[i]))
            && (forall i | a + |r| <= i < |s| :: IsWhite(s[i]))
  {
    var t := TrimStart(s);
    HeadOfSuffix(s, t, TrimEnd(t));
  }

  /** A prefix `r` of a suffix `t` of `s` is a stretch of `s`, and what
      follows `r` in `t` follows it in `s`. */
  lemma HeadOfSuffix(s: string, t: string, r: string)
    requires |t| <= |s| && t == s[|s| - |t|..]
    requires |r| <= |t| && r == t[..|r|]
    requires forall i | |r| <= i < |t| :: IsWhite(t[i])
    ensures var a := |s| - |t|;
            && a + |r| <= |s|
            && (forall i | 0 <= i < |r| :: r[i] == s[a + i])
            && (forall i | a + |r| <= i < |s| :: IsWhite(s[i]))
  {
    var a := |s| - |t|;
    forall i | 0 <= i < |r| ensures r[i] == s[a + i] {
      assert r[i] == t[i];
    }
    forall i | a + |r| <= i < |s| ensures IsWhite(s[i]) {
      assert s[i] == t[i - a];
    }
  }

  lemma TrimIdempotent(s: string)
    ensures Trim(Trim(s)) == Trim(s)
  {
    var r := Trim(s);
    if |r| > 0 {
      TrimNoWhite(r);
    }
  }

  lemma TrimNoWhite(s: string)
    requires |s| > 0 && !IsWhite(s[0]) && !IsWhite(s[|s| - 1])
    ensures Trim(s) == s
  {
  }

  predicate IsAscii(s: string) {
    forall i | 0 <= i < |s| :: s[i] as int < 0x80
  }

  /** `String.getBytes()` of ASCII text: one byte per character. */
  function AsciiBytes(s: string): (b: seq<byte>)
    requires IsAscii(s)
    ensures |b| == |s|
    ensures forall i | 0 <= i < |s| :: b[i] == s[i] as int
  {
    seq(|s|, i requires 0 <= i < |s| => s[i] as int)
  }

  /** `new String(bytes)` restricted to one character per byte; for the
      ASCII range this is what the platform's default charset decodes to,
      for the ASCII-compatible charsets Java platforms use. */
  function BytesText(b: seq<byte>): (s: string)
    ensures |s| == |b|
    ensures forall i | 0 <= i < |b| :: s[i] as int == b[i]
  {
    seq(|b|, i requires 0 <= i < |b| => b[i] as char)
  }

  lemma AsciiRoundTrip(s: string)
    requires IsAscii(s)
    ensures BytesText(AsciiBytes(s)) == s
  {
  }

  /** The joined decimal text of indices is plain ASCII without blanks. */
  lemma JoinedDecimalIsAscii(xs: seq<nat>)
    ensures IsAscii(Join(DecimalTexts(xs)))
    ensures forall i | 0 <= i < |Join(DecimalTexts(xs))| :: !IsWhite(Join(DecimalTexts(xs))[i])
  {
    JoinedTextChars(DecimalTexts(xs));
  }

  lemma {:induction false} JoinedTextChars(ts: seq<string>)
    requires forall k | 0 <= k < |ts| :: AllDigits(ts[k])
    ensures forall i | 0 <= i < |Join(ts)| :: IsDigit(Join(ts)[i]) || Join(ts)[i] == ','
  {
    if |ts| >= 2 {
      JoinedTextChars(ts[1..]);
      var j := Join(ts);
      assert j == ts[0] + "," + Join(ts[1..]);
      forall i | 0 <= i < |j| ensures IsDigit(j[i]) || j[i] == ',' {
        if i < |ts[0]| {
          assert j[i] == ts[0][i];
        } else if i > |ts[0]| {
          assert j[i] == Join(ts[1..])[i - |ts[0]| - 1];
        }
      }
    }
  }
}

=== FILE: timer.dfy ===
/** `CountdownTimer`: a thread that counts elapsed milliseconds up to a
    duration, runs its exit handler once the time is up, then waits for a
    `reset` to count again. The thread and its callers are interleaved as
    a sequence of events; `Tick` is one step of the timer thread itself. */
module Timer {
  import opened Types

  /** Where the timer thread is: not started; at the test of the outer
      loop; in the counting loop (sleeping one millisecond per step);
      blocked in `lock.wait()`; or returned from `run`. */
  datatype Phase = NotStarted | LoopHead | Counting | Waiting | Finished

  /** The shared fields, `TIME` as `time`, `timelapsed` as `elapsed`,
      whether an exit handler is set, and a pending interrupt that the next
      sleep or wait turns into an `InterruptedException`. */
  datatype Timer = Timer(time: int, elapsed: nat, stopped: bool, resetQueued: bool,
                         hasHandler: bool, interrupted: bool, phase: Phase)

  /** The constructor: nothing elapsed, not stopped, a first count queued. */
  function NewTimer(duration: i32): (t: Timer)
    ensures t.phase == NotStarted && t.time == duration
    ensures t.elapsed == 0 && !t.stopped && t.resetQueued && !t.hasHandler && !t.interrupted
  {
    Timer(duration, 0, false, true, false, false, NotStarted)
  }

  /** `Thread.start`: a second start throws. */
  function Start(t: Timer): (r: Result<Timer>)
    ensures r.Ok? <==> t.phase == NotStarted
    ensures r.Err? ==> r.error == IllegalThreadState
    ensures r.Ok? ==> r.value == t.(phase := LoopHead)
  {
    if t.phase == NotStarted then Ok(t.(phase := LoopHead)) else Err(IllegalThreadState)
  }

  datatype Event =
    | Tick                      // one step of the timer thread; a handler it runs returns
    | ThrowingTick              // the same, but a handler it runs throws
    | Reset                     // reset()
    | ResetTimeLapsed           // resetTimeLapsed()
    | Stop                      // stopTimer()
    | Kill                      // killTimer()
    | SetHandler(present: bool) // setExitHandler(h), h != null iff present

  /** A step of the timer thread itself. */
  predicate IsTick(e: Event) {
    e == Tick || e == ThrowingTick
  }

  /** The timer after one event, and whether the exit handler ran. */
  datatype Stepped = Stepped(timer: Timer, fired: bool)

  /** The time is up: the counting loop has nothing left to count. */
  predicate TimeUp(t: Timer) {
    t.stopped || t.elapsed >= t.time
  }

  /** One event.
      - Tick at the loop head: a queued count is consumed and counting
        starts; with none queued `run` returns.
      - Tick while counting: while not stopped and time remains, sleep one
        millisecond (an interrupt ends the thread) and count it; otherwise
        run the handler if not stopped and one is set, then wait (an
        interrupt ends the thread). A handler that throws ends the thread:
        `run` catches the exception and returns.
      - Tick while not started, waiting or finished: nothing happens.
      - Reset clears the count and the stop and queues a count; its
        notify wakes a waiting thread and is lost otherwise.
      - Kill stops and interrupts: a sleeping or waiting thread ends at
        once, a thread at the loop head ends at its next sleep or wait, and
        a thread not yet started is unaffected by the interrupt. */
  function Step(t: Timer, e: Event): (r: Stepped)
    ensures r.fired <==> IsTick(e) && t.phase == Counting && TimeUp(t) && !t.stopped && t.hasHandler
    ensures r.timer.time == t.time
    ensures t.phase == Finished ==> r.timer.phase == Finished
    ensures r.timer.phase == NotStarted <==> t.phase == NotStarted
    ensures e != Reset ==> r.timer.stopped == (t.stopped || e == Stop || e == Kill)
    ensures e == Reset ==> !r.timer.stopped && r.timer.elapsed == 0 && r.timer.resetQueued
    ensures e == Reset ==> r.timer.(phase := t.phase) == t.(elapsed := 0, resetQueued := true, stopped := false)
    ensures e == Reset ==> (r.timer.phase == LoopHead <==> t.phase == Waiting || t.phase == LoopHead)
    ensures r.fired ==> r.timer.phase == Waiting || r.timer.phase == Finished
    ensures r.fired ==> (r.timer.phase == Finished <==> e == ThrowingTick || t.interrupted)
    ensures IsTick(e) ==> r.timer.elapsed == t.elapsed || (t.phase == Counting && !TimeUp(t) && r.timer.elapsed == t.elapsed + 1)
    ensures IsTick(e) && t.phase in {NotStarted, Waiting, Finished} ==> r == Stepped(t, false)
    ensures e == ResetTimeLapsed ==> r == Stepped(t.(elapsed := 0), false)
    ensures e == Stop ==> r == Stepped(t.(stopped := true), false)
    ensures e.SetHandler? ==> r == Stepped(t.(hasHandler := e.present), false)
    ensures e == Kill ==> r.timer.stopped && r.timer.(stopped := t.stopped, interrupted := t.interrupted, phase := t.phase) == t
    ensures e == Kill && t.phase != NotStarted ==> r.timer.interrupted && (t.phase != LoopHead ==> r.timer.phase == Finished)
  {
    match e
    case Tick | ThrowingTick =>
      (match t.phase
      case LoopHead =>
        if t.resetQueued then Stepped(t.(resetQueued := false, phase := Counting), false)
        else Stepped(t.(phase := Finished), false)
      case Counting =>
        if !TimeUp(t) then
          if t.interrupted then Stepped(t.(phase := Finished), false)
          else Stepped(t.(elapsed := t.elapsed + 1), false)
        else
          var fired := !t.stopped && t.hasHandler;
          var ends := t.interrupted || (fired && e == ThrowingTick);
          Stepped(t.(phase := if ends then Finished else Waiting), fired)
      case _ => Stepped(t, false))
    case Reset =>
      var u := t.(elapsed := 0, resetQueued := true, stopped := false);
      Stepped(if t.phase == Waiting then u.(phase := LoopHead) else u, false)
    case ResetTimeLapsed => Stepped(t.(elapsed := 0), false)
    case Stop => Stepped(t.(stopped := true), false)
    case Kill =>
      var u := t.(stopped := true);
      (match t.phase
      case NotStarted => Stepped(u, false)
      case LoopHead => Stepped(u.(interrupted := true), false)
      case _ => Stepped(u.(interrupted := true, phase := Finished), false))
    case SetHandler(present) => Stepped(t.(hasHandler := present), false)
  }

  /** A run of events: the final timer and how many times the handler ran. */
  function Run(t: Timer, es: seq<Event>): (r: (Timer, nat))
    decreases |es|
  {
    if |es| == 0 then (t, 0)
    else
      var s := Step(t, es[0]);
      var (u, n) := Run(s.timer, es[1..]);
      (u, n + if s.fired then 1 else 0)
  }

  /** The count never passes the duration (or zero, for a duration that is
      not positive). */
  predicate Bounded(t: Timer) {
    t.elapsed <= if t.time > 0 then t.time else 0
  }

  lemma StepKeepsBounded(t: Timer, e: Event)
    requires Bounded(t)
    ensures Bounded(Step(t, e).timer)
  {
  }

  lemma {:induction false} RunKeepsBounded(t: Timer, es: seq<Event>)
    requires Bounded(t)
    ensures Bounded(Run(t, es).0)
    decreases |es|
  {
    if |es| > 0 {
      StepKeepsBounded(t, es[0]);
      RunKeepsBounded(Step(t, es[0]).timer, es[1..]);
    }
  }

  /** A finished thread never runs the handler again. */
  lemma {:induction false} FinishedIsFinal(t: Timer, es: seq<Event>)
    requires t.phase == Finished
    ensures Run(t, es).0.phase == Finished && Run(t, es).1 == 0
    decreases |es|
  {
    if |es| > 0 {
      FinishedIsFinal(Step(t, es[0]).timer, es[1..]);
    }
  }

  /** After the handler has run the thread waits, and nothing but a `reset`
      makes it run the handler again: at most one firing per count. */
  lemma {:induction false} WaitingNeedsReset(t: Timer, es: seq<Event>)
    requires t.phase == Waiting || t.phase == Finished
    requires forall i | 0 <= i < |es| :: es[i] != Reset
    ensures Run(t, es).1 == 0
    decreases |es|
  {
    if |es| > 0 {
      WaitingNeedsReset(Step(t, es[0]).timer, es[1..]);
    }
  }

  /** Between two resets the handler runs at most once: the step that
      runs it leaves the thread waiting (or ended), and a waiting thread
      needs a `reset` to count again. */
  lemma {:induction false} AtMostOncePerCycle(t: Timer, es: seq<Event>)
    requires forall i | 0 <= i < |es| :: es[i] != Reset
    ensures Run(t, es).1 <= 1
    decreases |es|
  {
    if |es| > 0 {
      var s := Step(t, es[0]);
      if s.fired {
        WaitingNeedsReset(s.timer, es[1..]);
      } else {
        AtMostOncePerCycle(s.timer, es[1..]);
      }
    }
  }

  /** Once a count has ended and the thread waits, no tick counts until a
      `reset`: the thread stays waiting (or ends) and the elapsed time does
      not grow. */
  lemma {:induction false} NoCountWithoutReset(t: Timer, es: seq<Event>)
    requires t.phase == Waiting || t.phase == Finished
    requires forall i | 0 <= i < |es| :: es[i] != Reset
    ensures Run(t, es).0.phase == Waiting || Run(t, es).0.phase == Finished
    ensures Run(t, es).0.elapsed <= t.elapsed
    decreases |es|
  {
    if |es| > 0 {
      NoCountWithoutReset(Step(t, es[0]).timer, es[1..]);
    }
  }

  /** A handler that throws ends the thread for good: the handler never
      runs again, whatever follows, a `reset` included. */
  lemma ThrowingHandlerEndsTimer(t: Timer, es: seq<Event>)
    requires Step(t, ThrowingTick).fired
    ensures Step(t, ThrowingTick).timer.phase == Finished
    ensures Run(Step(t, ThrowingTick).timer, es).1 == 0
  {
    FinishedIsFinal(Step(t, ThrowingTick).timer, es);
  }

  /** A stopped timer does not run its handler until a `reset`. */
  lemma {:induction false} StoppedStaysSilent(t: Timer, es: seq<Event>)
    requires t.stopped
    requires forall i | 0 <= i < |es| :: es[i] != Reset
    ensures Run(t, es).1 == 0
    decreases |es|
  {
    if |es| > 0 {
      StoppedStaysSilent(Step(t, es[0]).timer, es[1..]);
    }
  }

  /** A killed timer thread is doomed: it has ended, or it will end at its
      next sleep or wait without running the handler. */
  predicate Doomed(t: Timer) {
    || t.phase == Finished
    || (&& (t.phase == LoopHead || t.phase == Counting)
        && t.interrupted && t.time > 0
        && (t.stopped || t.elapsed < t.time))
  }

  lemma DoomedStep(t: Timer, e: Event)
    requires Doomed(t)
    ensures Doomed(Step(t, e).timer) && !Step(t, e).fired
  {
  }

  lemma {:induction false} DoomedRun(t: Timer, es: seq<Event>)
    requires Doomed(t)
    ensures Run(t, es).1 == 0
    decreases |es|
  {
    if |es| > 0 {
      DoomedStep(t, es[0]);
      DoomedRun(Step(t, es[0]).timer, es[1..]);
    }
  }

  /** After `killTimer` on a started timer with a positive duration, the
      handler never runs again, whatever the callers do next (a later
      `reset` included). */
  lemma KillSilences(t: Timer, es: seq<Event>)
    requires t.phase != NotStarted && t.time > 0
    ensures Run(Step(t, Kill).timer, es).1 == 0
  {
    DoomedRun(Step(t, Kill).timer, es);
  }

  function Ticks(n: nat): (es: seq<Event>)
    ensures |es| == n && forall i | 0 <= i < n :: es[i] == Tick
  {
    seq(n, i => Tick)
  }

  /** Uninterrupted counting adds one millisecond per tick. */
  lemma {:induction false} CountingTicks(t: Timer, n: nat)
    requires t.phase == Counting && !t.stopped && !t.interrupted
    requires t.elapsed + n <= t.time
    ensures Run(t, Ticks(n)) == (t.(elapsed := t.elapsed + n), 0)
    decreases n
  {
    if n > 0 {
      var u := t.(elapsed := t.elapsed + 1);
      assert Step(t, Tick).timer == u;
      CountingTicks(u, n - 1);
      assert Ticks(n)[1..] == Ticks(n - 1);
    }
  }

  /** Running two event lists one after the other. */
  lemma {:induction false} RunAppend(t: Timer, es: seq<Event>, fs: seq<Event>)
    ensures Run(t, es + fs) == (Run(Run(t, es).0, fs).0, Run(t, es).1 + Run(Run(t, es).0, fs).1)
    decreases |es|
  {
    if |es| == 0 {
      assert es + fs == fs;
    } else {
      RunAppend(Step(t, es[0]).timer, es[1..], fs);
      assert (es + fs)[0] == es[0];
      assert (es + fs)[1..] == es[1..] + fs;
    }
  }

  /** One full count: a freshly started timer with a handler and a
      non-negative duration runs the handler exactly once after
      `time + 2` steps (start the count, count `time` milliseconds, fire),
      and is then waiting with the full duration elapsed. */
  lemma OneCountFiresOnce(duration: i32)
    requires duration >= 0
    ensures var t := Start(NewTimer(duration).(hasHandler := true)).value;
            var (u, n) := Run(t, Ticks(duration as nat + 2));
            && n == 1
            && u.phase == Waiting && u.elapsed == duration
  {
    var t := Start(NewTimer(duration).(hasHandler := true)).value;
    var d := duration as nat;
    var c := t.(resetQueued := false, phase := Counting);
    assert Ticks(d + 2) == [Tick] + Ticks(d) + [Tick];
    RunAppend(t, [Tick] + Ticks(d), [Tick]);
    RunAppend(t, [Tick], Ticks(d));
    assert Run(t, [Tick]) == (c, 0);
    CountingTicks(c, d);
    var full := c.(elapsed := d);
    assert Run(full, [Tick]) == (full.(phase := Waiting), 1);
  }

  /** A `reset` that arrives while the thread is counting is not lost as a
      reset: the count restarts from zero, the handler runs when it
      expires, but its notify finds no waiter, so the thread then waits
      although a further count was queued. */
  lemma ResetWhileCountingRestartsCount(t: Timer)
    requires t.phase == Counting && !t.interrupted
    ensures var u := Step(t, Reset).timer;
            && u.phase == Counting && u.elapsed == 0 && u.resetQueued && !u.stopped
  {
  }
}

=== FILE: types.dfy ===
/** Shared vocabulary of the model: Java's byte and int as bounded integers,
    and the two failure-carrying wrappers used for the source's exceptions. */
module Types {

  /** One octet as its unsigned bit pattern. Java's `byte` is the same eight
      bits read as a signed value; see `SignedByte`. */
  type byte = x: int | 0 <= x < 0x100

  const MinInt32: int := -0x8000_0000
  const MaxInt32: int := 0x7FFF_FFFF

  /** Java's 32-bit `int`. */
  type i32 = x: int | -0x8000_0000 <= x <= 0x7FFF_FFFF

  /** Java `int` arithmetic: the mathematical result wrapped into 32 bits. */
  function Wrap32(x: int): (r: i32)
    ensures (r - x) % 0x1_0000_0000 == 0
    ensures MinInt32 <= x <= MaxInt32 ==> r == x
  {
    (x + 0x8000_0000) % 0x1_0000_0000 - 0x8000_0000
  }

  /** A sum of two non-negative ints: it stays itself while it fits, and
      wraps to a negative int once it passes `Integer.MAX_VALUE`. */
  lemma WrapOfSum(x: int)
    requires 0 <= x <= 2 * MaxInt32
    ensures x <= MaxInt32 ==> Wrap32(x) == x
    ensures x > MaxInt32 ==> Wrap32(x) == x - 0x1_0000_0000 && Wrap32(x) < 0
  {
  }

  /** A byte read the way Java reads `byte`: codes 128..255 become negative. */
  function SignedByte(b: byte): (v: i32)
    ensures -128 <= v <= 127
    ensures v % 0x100 == b
  {
    if b < 0x80 then b else b - 0x100
  }

  /** Java's `Integer.MAX_VALUE`-bounded array and list sizes. */
  const MaxArrayLength: int := MaxInt32

  datatype Option<+T> = None | Some(value: T)

  /** The Java exceptions the modelled code can raise. */
  datatype Exception =
    | IndexOutOfBounds     // ArrayIndexOutOfBoundsException / IndexOutOfBoundsException
    | NumberFormat         // NumberFormatException from Integer.parseInt
    | IllegalThreadState   // Thread.start on a thread that was already started
    | IllegalArgument      // Arrays.copyOfRange with the end before the start

  datatype Result<+T> = Ok(value: T) | Err(error: Exception)
}
